=== FILE: README.md ===
# Dedicated game server collections and their table store, in Dafny

This project models two parts of a Kubernetes operator for dedicated game servers.

**The DedicatedGameServerCollection controller.** It drains namespace/name keys from a rate-limited work queue. For each key it looks the collection up and counts the game servers carrying the label `dgsCol=<collection name>`. Then it converges:
- it creates the missing game servers, named `<collection>-<5 random characters>` and owned by the collection;
- it soft-unlinks the surplus game servers, chosen at random indexes, by clearing their owner references and removing the label;
- on success it records a "synced" event.

The update handler queues a collection only when both its resource version and its replica count changed.

**The table-store helpers.** Ports are reserved as rows keyed by their decimal form. Game-server rows are upserted sparsely, looked up, filtered, and cleaned up together with their port.

Modules:

- `Basics`: options, results, duplicate-free sequences.
- `Strconv`: Go's `strconv.Itoa` / `strconv.Atoi` for 64-bit `int`, with the round trip. `Atoi` scans digits left to right as `ParseUint` does, so an overflowing digit run is reported as out of range before a later non-digit is reached.
- `TableStorage`: an Azure table as a `class Table` over a map from (partition, row) to properties. The SDK's 409 and 404 replies become the error kinds `Conflict` and `NotFound`.
- `StorageHelpers`: the helpers of `shared/storagehelpers.go`. The cleanup comes twice, as written and corrected.
- `ObjectKeys`: client-go's namespace/name work-queue keys and their splitting.
- `WorkQueues`: the rate-limited work queue as a `class WorkQueue`. It holds the pending items in order, the items in progress, and per-item failure counts.
- `ClusterState`: the API server and listers as a `class Cluster`. It holds the collections, the game servers, a log of create/update requests and the event sink. Each call can be rejected. Collections are namespaced objects, so none is stored under the empty namespace (`Cluster.Valid`).
- `CollectionController`: the controller as a `class Controller` over one cluster and one queue.

Everything a sync cannot decide itself is an input `Env`:
- the port draws and name suffixes;
- the random indexes for scale-down;
- the set of call ordinals the API server rejects. 0 is the collection lookup and 1 is the listing. On scale-up, 2 + i is the i-th create. On scale-down, 2 + 2i and 3 + 2i are the i-th get and update.

The result of a sync is stated by the predicate `SyncOutcome`, which relies on `Reconciled`, `ScaledUp` and `ScaledDown`. A ghost `Trace` records how many creates succeeded and which game servers were unlinked. `ScaledUp` and `ScaledDown` tie every error to its cause: a failed port draw, a create whose name was taken, or the call the API server rejected. So a sync succeeds when the server rejects none of its calls, every port draw succeeds, and the drawn names are distinct and free (`UnrejectedSyncSucceeds`).

## Model

| member | source | states |
|---|---|---|
| `ObjectKeys.SplitMetaNamespaceKey` | controller/DGSCollectionController.go:179-183 | a key without '/' is a bare name with the empty namespace `""` (not `default`); any key it accepts yields a namespace and name free of '/' |
| `ObjectKeys.SplitRejectsTwoSlashes` | controller/DGSCollectionController.go:179-183 | a key with two or more slashes is rejected, so the sync returns nil without touching anything |
| `ObjectKeys.SplitJoin` | controller/DGSCollectionController.go:280-288 | the namespace/name key a collection is queued under splits back into exactly that namespace and name |
| `WorkQueues.WorkQueue.Add` | controller/DGSCollectionController.go:287 | an item is queued at the back unless already pending or the queue is shutting down; pending stays duplicate-free |
| `WorkQueues.WorkQueue.AddRateLimited` | controller/DGSCollectionController.go:287 | one more failure is counted for the item and the item is added |
| `WorkQueues.WorkQueue.Get` | controller/DGSCollectionController.go:123-127 | the oldest pending item is taken and marked in progress; an empty, shut-down queue yields nothing |
| `WorkQueues.WorkQueue.Done` | controller/DGSCollectionController.go:137 | the item is no longer in progress; nothing else changes |
| `WorkQueues.WorkQueue.Forget` | controller/DGSCollectionController.go:149 | the item's failure count is cleared; nothing else changes |
| `ClusterState.Unlinked` | controller/DGSCollectionController.go:242-244 | the copy has no owner references and no `dgsCol` label, and keeps every other label and field |
| `ClusterState.UnlinkedIsNeverSelected` | controller/DGSCollectionController.go:200-205 | an unlinked game server matches no collection's selector |
| `ClusterState.LabelledAfterCreate` | controller/DGSCollectionController.go:222-223 | creating a labelled game server under a free key adds exactly that key to the selection |
| `ClusterState.LabelledAfterUnlink` | controller/DGSCollectionController.go:242-245 | unlinking a selected game server removes exactly that key from the selection |
| `ClusterState.Cluster.GetCollection` | controller/DGSCollectionController.go:186-196 | the lookup is rejected, finds nothing (NotFound) or returns the stored collection |
| `ClusterState.Cluster.ListSelected` | controller/DGSCollectionController.go:200-209 | the listing is rejected or returns each game server the selector matches exactly once |
| `ClusterState.Cluster.GetServer` | controller/DGSCollectionController.go:237-241 | the get is rejected, finds nothing or returns the stored game server |
| `ClusterState.Cluster.CreateServer` | controller/DGSCollectionController.go:223-228 | the request is logged; a taken name gives AlreadyExists; only a successful create adds the game server |
| `ClusterState.Cluster.UpdateServer` | controller/DGSCollectionController.go:245-249 | the request is logged; only a successful update replaces the stored game server |
| `ClusterState.Cluster.Record` | controller/DGSCollectionController.go:253 | the event is appended; collections, game servers and requests are unchanged |
| `CollectionController.NewGameServer` | controller/DGSCollectionController.go:222 | the new game server is selected by the collection, owned by it, and carries its start map, image and the drawn port (its name is carried by the create request's key) |
| `CollectionController.CreateAtShape` | controller/DGSCollectionController.go:222-223 | every create targets the sync's namespace with a name `<collection>-` plus five characters, labelled, owned, with the collection's start map and image |
| `CollectionController.CreatesAt` | controller/DGSCollectionController.go:215-229 | n successful steps issue exactly n create requests, the j-th for the j-th drawn port and suffix |
| `CollectionController.MadeStep` | controller/DGSCollectionController.go:223 | one more successful create extends the created game servers by one entry, still disjoint from the old ones |
| `CollectionController.UnlinkAll` | controller/DGSCollectionController.go:236-250 | unlinking a set of game servers removes none, strips owner and label from each unlinked one, and leaves every other game server as it was |
| `CollectionController.UnlinkAllStep` | controller/DGSCollectionController.go:242-245 | unlinking one more game server is a single-entry update of the unlinked map |
| `CollectionController.UnlinksStep` | controller/DGSCollectionController.go:245 | unlinking one more game server appends one update request |
| `CollectionController.TargetsAreSelected` | controller/DGSCollectionController.go:233-237 | distinct random indexes into the listing name distinct selected game servers |
| `CollectionController.LabelledAfterUnlinkAll` | controller/DGSCollectionController.go:230-250 | unlinking k distinct selected game servers shrinks the selection by exactly those k |
| `CollectionController.ScaleUpStep` | controller/DGSCollectionController.go:215-229 | a successful create of a free key advances the scale-up account by one game server and one request |
| `CollectionController.ScaleUpStopsAtDraw` | controller/DGSCollectionController.go:217-220 | a failed port draw stops the scale-up with that error, with earlier creates kept and no new request |
| `CollectionController.ScaleUpStopsAtCreate` | controller/DGSCollectionController.go:223-228 | a rejected create stops the scale-up with the API error, with that create logged and earlier creates kept |
| `CollectionController.ScaleUpDone` | controller/DGSCollectionController.go:215-229 | after all steps succeed, exactly `count` game servers were created and the selection grew by `count` |
| `CollectionController.ReconciledByScaleUp` | controller/DGSCollectionController.go:214-253 | a scale-up followed by the event on success converges the selection to the replica count |
| `CollectionController.ReconciledByScaleDown` | controller/DGSCollectionController.go:230-253 | a scale-down followed by the event on success converges the selection to the replica count |
| `CollectionController.BareKeyIsQuiet` | controller/DGSCollectionController.go:179-194 | a key without '/' names the empty namespace, where no namespaced collection is stored, so unless the lookup is rejected the sync returns nil and changes nothing |
| `CollectionController.RejectedReadFails` | controller/DGSCollectionController.go:186-209 | a rejected collection lookup or listing is returned as the sync's error and changes nothing |
| `CollectionController.ResyncIsQuiet` | controller/DGSCollectionController.go:211-253 | after a successful sync, a second sync whose reads go through issues no request, changes no game server and records one event |
| `CollectionController.UnrejectedSyncSucceeds` | controller/DGSCollectionController.go:176-255 | a sync in which the API server rejects no call, and whose scale-up draws every port and distinct free names, returns no error and leaves the selection at the replica count |
| `CollectionController.NotYetMade` | controller/DGSCollectionController.go:215-229 | a create whose name suffix differs from the earlier ones names a key none of them made |
| `CollectionController.ServersStep` | controller/DGSCollectionController.go:223-228 | a successful create of a free key adds exactly that game server and grows the selection by one |
| `CollectionController.CreatesStep` | controller/DGSCollectionController.go:223 | one more create appends exactly that request to the log |
| `CollectionController.Controller.ScaleUp` | controller/DGSCollectionController.go:214-229 | creates `count` game servers in order and stops at the first failed draw or rejected create; every create before the stop was accepted; the stop is `Unavailable` exactly when the server rejected that create, otherwise `AlreadyExists` because its name was taken; nothing is rolled back; the selection grows by the number created |
| `CollectionController.Controller.CreateOne` | controller/DGSCollectionController.go:217-223 | a failed draw issues nothing; otherwise one create request is logged and the game server is added unless the request is rejected or the name is taken |
| `CollectionController.Controller.UnlinkOne` | controller/DGSCollectionController.go:237-249 | a rejected get issues nothing; otherwise one update request is logged and the game server is unlinked unless the update is rejected |
| `CollectionController.Controller.ScaleDown` | controller/DGSCollectionController.go:230-250 | unlinks the game servers at the drawn indexes in order until one call is rejected; every get and update before the stop was accepted, and an error means either that the next get was rejected and no update followed it, or that the get went through and the update after it was rejected; exactly those are unlinked, nothing is deleted, and the selection shrinks by their number |
| `CollectionController.Controller.Sync` | controller/DGSCollectionController.go:176-255 | a malformed key or a missing collection ends quietly; a rejected read is returned; otherwise the collection is reconciled, converging on success and recording one event only then |
| `CollectionController.Controller.Reconcile` | controller/DGSCollectionController.go:211-254 | in balance no request is made; otherwise the sync scales up or down by the difference; on success the selection equals the replica count and one event is recorded |
| `CollectionController.Controller.ProcessNextWorkItem` | controller/DGSCollectionController.go:122-171 | as written: on shutdown returns false and touches nothing, the shutdown flag included; otherwise takes the next item, forgets a non-string item or a successfully synced key, reports a failed sync without re-queueing it, and always marks the item done |
| `CollectionController.Controller.ProcessNextWorkItemWithRetry` | controller/DGSCollectionController.go:131-136 | corrected: as above, but a failed sync counts a failure and leaves the key pending again unless the queue is shutting down |
| `CollectionController.Controller.Enqueue` | controller/DGSCollectionController.go:276-288 | the collection's namespace/name key is pending afterwards (unless shutting down) and its failure count grows by one |
| `CollectionController.Controller.OnUpdate` | controller/DGSCollectionController.go:80-95 | an update with an unchanged resource version or replica count changes neither the queue nor the failure counts; otherwise the exact state after `AddRateLimited` of the new collection's key: that key is appended unless already pending or shutting down, its failure count grows by one, and nothing else changes |
| `CollectionController.FailedSyncIsDropped` | controller/DGSCollectionController.go:155-168 | as written: a round whose sync is rejected leaves the queue empty and reports the failure |
| `CollectionController.FailedSyncIsRetried` | controller/DGSCollectionController.go:131-136 | corrected: the same round leaves the key pending with one failure counted |
| `Strconv.Atoi` | shared/storagehelpers.go:120 | a parsed value fits in 64 bits and comes from an optionally signed run of digits; the empty string is a syntax error |
| `Strconv.AtoiItoa` | shared/storagehelpers.go:120 | parsing the decimal form of any 64-bit integer gives it back |
| `Strconv.ItoaInjective` | shared/storagehelpers.go:30-31 | distinct 64-bit integers have distinct decimal forms |
| `Strconv.AtoiRejectsNonDigit` | shared/storagehelpers.go:120-124 | a string with a non-digit past the sign position does not parse; at the first non-digit the error is `ErrRange` if the digits before it already overflow 64 bits, `ErrSyntax` otherwise |
| `Strconv.ScanDigits` | shared/storagehelpers.go:120 | the digit loop of Go's `ParseUint`, scanned left to right: an accepted string is all digits and its value is at most 2^64 - 1 |
| `Strconv.ScanAccepts` | shared/storagehelpers.go:120 | digits whose value fits in 64 bits are accepted with that value |
| `Strconv.ScanOverflows` | shared/storagehelpers.go:120 | a digit run that overflows 64 bits fails with `ErrRange`, whatever follows it |
| `Strconv.ScanRejects` | shared/storagehelpers.go:120 | a digit run that fits, followed by a non-digit, fails with `ErrSyntax` |
| `Strconv.ScanFails` | shared/storagehelpers.go:120 | a non-digit anywhere makes the scan fail |
| `StorageHelpers.PortKeyInjective` | shared/storagehelpers.go:30-31 | different ports are reserved by different rows |
| `TableStorage.Merge` | shared/storagehelpers.go:85 | the merged properties are the union; the patch overwrites, every other stored property keeps its value |
| `TableStorage.Table.Insert` | shared/storagehelpers.go:31-32 | a present row gives Conflict and changes nothing; otherwise an empty row is inserted |
| `TableStorage.Table.InsertOrMerge` | shared/storagehelpers.go:85 | the row is created if absent and the properties are merged into it |
| `TableStorage.Table.Get` | shared/storagehelpers.go:97-101 | the lookup fails, finds nothing, or returns the stored row |
| `TableStorage.Table.Delete` | shared/storagehelpers.go:183-185 | a present row is removed; an absent one gives NotFound |
| `StorageHelpers.CreatePort` | shared/storagehelpers.go:25-40 | inserts row (Itoa p, Itoa p) and returns true exactly when it was free; a conflict is false with no error; any other error is false with that error and nothing changes |
| `StorageHelpers.CreatePortTwice` | shared/storagehelpers.go:25-40 | reserving a free port twice returns true, then false, with no error |
| `StorageHelpers.DeletePort` | shared/storagehelpers.go:173-191 | the port's row is absent afterwards; a missing row is no error; any other error leaves the table unchanged |
| `StorageHelpers.DeletePortTwice` | shared/storagehelpers.go:173-191 | releasing a port twice succeeds both times and leaves it free |
| `StorageHelpers.SparseProperties` | shared/storagehelpers.go:59-83 | the property map holds exactly the non-empty fields among PublicIP, NodeName, Status, Port and ActiveSessions, with their values |
| `StorageHelpers.PatchIsDetermined` | shared/storagehelpers.go:59-83 | any map with exactly those properties is the upsert's patch |
| `StorageHelpers.UpsertGameServerEntity` | shared/storagehelpers.go:43-86 | an empty name or namespace is an error with nothing written; otherwise row (namespace, name) is merged with the non-empty fields only |
| `StorageHelpers.UpsertsAccumulate` | shared/storagehelpers.go:57-85 | two upserts of the same row keep the first's value for every field the second leaves empty, and untouched properties keep their stored values |
| `StorageHelpers.UpsertPortThenStatus` | shared/storagehelpers.go:57-85 | upserting Port and then Status leaves both on the row |
| `StorageHelpers.GetEntity` | shared/storagehelpers.go:89-102 | the lookup of (namespace, name) fails, finds nothing, or returns the stored row |
| `StorageHelpers.RunningRows` | shared/storagehelpers.go:141-154 | exactly the rows whose Status is "Running", unchanged |
| `StorageHelpers.ReclaimableRows` | shared/storagehelpers.go:157-170 | exactly the rows with Status equal to MarkedForDeletionState and ActiveSessions "0", unchanged |
| `StorageHelpers.RunningIsNeverReclaimable` | shared/storagehelpers.go:149-167 | no row is returned by both queries |
| `StorageHelpers.RunningAfterUpsert` | shared/storagehelpers.go:69-71 | after an upsert, a non-empty Status decides whether the row is running; an empty one leaves it where it was; other rows are unaffected |
| `StorageHelpers.ReclaimableAfterUpsert` | shared/storagehelpers.go:165-167 | a row upserted with non-zero sessions or another status is not reclaimable; one marked for deletion with "0" sessions is |
| `StorageHelpers.DeleteDedicatedGameServerEntityAsWritten` | shared/storagehelpers.go:105-138 | as written: a missing row returns the lookup error; an unparsable port deletes nothing and reports success; a failed port release keeps the row; a failed row delete panics on a nil error |
| `StorageHelpers.DeleteDedicatedGameServerEntity` | shared/storagehelpers.go:104-138 | corrected: the same steps, except that an unparsable port returns the parse error and a failed row delete returns its error (not-found suppressed); the port is released before the row is deleted |
| `StorageHelpers.ParseFailureAsWritten` | shared/storagehelpers.go:120-124 | a row with Port "none" is kept and success is reported |
| `StorageHelpers.ParseFailureCorrected` | shared/storagehelpers.go:120-124 | the same row is kept and the syntax error is reported |
| `StorageHelpers.RowDeleteFailureAsWritten` | shared/storagehelpers.go:132-136 | with a rejected row delete, the port is released, the row kept, and the call panics |
| `StorageHelpers.RowDeleteFailureCorrected` | shared/storagehelpers.go:132-136 | the same call returns the row-delete error instead |

## Left out

- `RunWorker` (controller/DGSCollectionController.go:111-118) repeats `processNextWorkItem` until it returns false. The model states one round; the loop adds nothing beyond repetition.
- `WorkQueues.WorkQueue.Get`: requires a non-empty or shutting-down queue, because the source blocks in that state instead of returning.
- `CollectionController.Controller.ScaleDown`: requires distinct indexes below the listing's length, through `ValidEnv`. `shared.GetRandomIndexes` is not part of this model, and this is what it is assumed to promise.
- `CollectionController.Controller.Sync`: requires `ValidEnv`, for the same reason. `shared.RandString` is assumed to return five characters.
- `shared.GetRandomPort`, `shared.RandString` and `shared.GetRandomIndexes` are not part of this model. Their results are inputs (`Env`); a failed port draw is a `None`.
- `shared.NewDedicatedGameServer` is not part of this model. It is assumed to label the game server `dgsCol=<collection>`, make the collection its owner, and carry the given port, session URL, start map and image.
- Replica counts are modelled as `nat`. The source's `int32` may be negative, and what `GetRandomIndexes` does then is unknown.
- Listers read the same state the clients write. The informer cache's lag behind the API server is not modelled.
- The work queue's rate limiter is reduced to a failure count: back-off delays are not modelled, and a rate-limited add is pending at once. Its dirty set is not modelled either: a key added while in progress is pending straight away, not when it is marked done. Concurrent workers are not modelled.
- The `DeleteFunc` handler (controller/DGSCollectionController.go:96-101) only logs.
- The type assertions and the tombstone path of `handleDedicatedGameServerCollection` (controller/DGSCollectionController.go:257-275) are not modelled. The add and update handlers only deliver collections, so `Enqueue` takes one directly. For a collection, `MetaNamespaceKeyFunc` cannot fail, so its error branch is not modelled either.
- The controller's constructor and informer wiring (controller/DGSCollectionController.go:52-106), and the `Workqueue` and `ListersSynced` accessors, are client-go plumbing.
- Logging, `runtime.HandleError`, event message formatting and the debug print at shared/storagehelpers.go:73 have no effect on state.
- The storage client, table references, timeouts and the ignored `table.Create` calls are left out. Each SDK call takes a `fail` input. Error strings become the kinds `Conflict`, `NotFound` and `ServiceError`.
- `StorageHelpers.RunningState` ("Running") and `StorageHelpers.MarkedForDeletionState` ("MarkedForDeletion") are defined outside shared/storagehelpers.go; their values are assumed here. `RunningIsNeverReclaimable` holds only because the two differ.
- `StorageHelpers.GetRunningEntities` and `StorageHelpers.GetEntitiesMarkedForDeletionWithZeroSessions` do not model a failing query or result paging. They state only the rows a successful query returns. When the query fails, shared/storagehelpers.go:153 and :169 read `result.Entities` before anything checks `err`. If the SDK returns a nil result together with its error, that is a nil dereference (a panic), not an error return.
- A `Port` property that is missing or not a string makes the cleanup panic in a type assertion (shared/storagehelpers.go:120). The model returns the outcome `PanicMissingPort` in both versions.
- The row delete in the cleanup cannot find the row missing here, because the model is sequential and the row was just read. The corrected version still suppresses `NotFound` as the comment at shared/storagehelpers.go:104 asks.
- Go's `int` is taken to be 64 bits wide (`Strconv.IsInt64`).

The comments at controller/DGSCollectionController.go:131-136 describe a failed sync as re-queued after a back-off. The code does not do this. `ProcessNextWorkItem` follows the code, and the difference is the third finding below.

## Findings

| source | as written | input that shows it | evidently intended | confidence | as-written member | corrected member |
|---|---|---|---|---|---|---|
| shared/storagehelpers.go:122-123 | when `Atoi` fails, returns `err`, which is nil at that point | a row whose Port is "none": nothing is deleted and success is reported (`StorageHelpers.ParseFailureAsWritten`) | return the parse error (`StorageHelpers.ParseFailureCorrected`) | not executed | `StorageHelpers.DeleteDedicatedGameServerEntityAsWritten` | `StorageHelpers.DeleteDedicatedGameServerEntity` |
| shared/storagehelpers.go:134 | the guard calls `err.Error()` on the nil lookup error instead of inspecting `errDelete` | Port "7777" and a rejected row delete: the port is released, then the call panics (`StorageHelpers.RowDeleteFailureAsWritten`) | return the row-delete error, suppressing only not-found (`StorageHelpers.RowDeleteFailureCorrected`) | not executed | `StorageHelpers.DeleteDedicatedGameServerEntityAsWritten` | `StorageHelpers.DeleteDedicatedGameServerEntity` |
| controller/DGSCollectionController.go:155-168 | a failed sync is reported but the key is neither forgotten nor re-added, so it is not processed again until an add event arrives or an update changes both its `ResourceVersion` and its `Spec.Replicas` (the filter at controller/DGSCollectionController.go:85-92) | the only queued key, with a rejected collection lookup: the queue is left empty (`CollectionController.FailedSyncIsDropped`) | call `AddRateLimited` on the key, as the comments at lines 131-136 describe (`CollectionController.FailedSyncIsRetried`) | not executed | `CollectionController.Controller.ProcessNextWorkItem` | `CollectionController.Controller.ProcessNextWorkItemWithRetry` |

=== FILE: basics.dfy ===
/** Small shared vocabulary: optional values, results and duplicate-free sequences. */
module Basics {

  datatype Option<+T> = None | Some(value: T)

  /** A value or the error that stands in for Go's non-nil `error` return. */
  datatype Result<+T, +E> = Success(value: T) | Failure(error: E)

  /** No element of `s` occurs twice. */
  predicate Distinct<T(==)>(s: seq<T>)
  {
    forall i, j :: 0 <= i < j < |s| ==> s[i] != s[j]
  }
}

=== FILE: cluster_state.dfy ===
/**
 * The cluster API as the collection controller sees it through its clients
 * and listers: collections and game servers keyed by namespace and name, the
 * event sink, and a log of the create and update requests issued. Listers
 * read the same state the clients write (cache lag is not modelled); each
 * call takes `rejected`, meaning the API server answers it with an error.
 */
module ClusterState {
  import opened Basics
  import opened ObjectKeys

  /** The label that ties a game server to its collection. */
  const LabelDGSCol := "dgsCol"

  datatype OwnerReference = OwnerReference(kind: string, name: string)

  /** A DedicatedGameServerCollection: desired replica count, image and start map. */
  datatype GameServerCollection = GameServerCollection(
    meta: ObjectKey,
    resourceVersion: string,
    replicas: nat,
    image: string,
    startMap: string)

  /** A DedicatedGameServer, reduced to the parts the controller reads or writes. */
  datatype GameServer = GameServer(
    labels: map<string, string>,
    ownerReferences: seq<OwnerReference>,
    port: int,
    sessionURL: string,
    startMap: string,
    image: string)

  datatype ApiError = NotFound | AlreadyExists | Unavailable

  /** A mutating request sent to the API server. */
  datatype Request = Create(key: ObjectKey, server: GameServer) | Update(key: ObjectKey, server: GameServer)

  /** The "synced" event recorded against a collection. */
  datatype Event = Synced(collection: ObjectKey)

  /** The selector `dgsCol=<colName>`. */
  predicate Selects(labels: map<string, string>, colName: string)
  {
    LabelDGSCol in labels && labels[LabelDGSCol] == colName
  }

  /** The game servers in `namespace` that the selector for collection `colName` matches. */
  function Labelled(servers: map<ObjectKey, GameServer>, namespace: string, colName: string): set<ObjectKey>
  {
    set k | k in servers && k.namespace == namespace && Selects(servers[k].labels, colName)
  }

  /**
   * The soft-unlinked copy of a game server: no owner references and no
   * `dgsCol` label; every other label and field is kept.
   */
  function Unlinked(gs: GameServer): (u: GameServer)
    ensures u.ownerReferences == []
    ensures LabelDGSCol !in u.labels
    ensures forall l :: l != LabelDGSCol ==> (l in u.labels <==> l in gs.labels)
    ensures forall l :: l in u.labels ==> u.labels[l] == gs.labels[l]
    ensures u.port == gs.port && u.image == gs.image && u.startMap == gs.startMap && u.sessionURL == gs.sessionURL
  {
    gs.(ownerReferences := [], labels := gs.labels - {LabelDGSCol})
  }

  /** An unlinked game server is matched by no collection's selector, so it is never counted again. */
  lemma UnlinkedIsNeverSelected(gs: GameServer, colName: string)
    ensures !Selects(Unlinked(gs).labels, colName)
  {
  }

  /** Creating a fresh labelled game server adds exactly that one to the selection. */
  lemma LabelledAfterCreate(servers: map<ObjectKey, GameServer>, k: ObjectKey, gs: GameServer, colName: string)
    requires k !in servers && Selects(gs.labels, colName)
    ensures Labelled(servers[k := gs], k.namespace, colName) == Labelled(servers, k.namespace, colName) + {k}
    ensures |Labelled(servers[k := gs], k.namespace, colName)| == |Labelled(servers, k.namespace, colName)| + 1
  {
    assert k !in Labelled(servers, k.namespace, colName);
  }

  /** Unlinking a selected game server removes exactly that one from the selection. */
  lemma LabelledAfterUnlink(servers: map<ObjectKey, GameServer>, k: ObjectKey, colName: string)
    requires k in Labelled(servers, k.namespace, colName)
    ensures Labelled(servers[k := Unlinked(servers[k])], k.namespace, colName) == Labelled(servers, k.namespace, colName) - {k}
    ensures |Labelled(servers[k := Unlinked(servers[k])], k.namespace, colName)| == |Labelled(servers, k.namespace, colName)| - 1
  {
    UnlinkedIsNeverSelected(servers[k], colName);
  }

  /** The cluster's state as a value. */
  datatype ClusterView = ClusterView(
    collections: map<ObjectKey, GameServerCollection>,
    servers: map<ObjectKey, GameServer>,
    requests: seq<Request>,
    events: seq<Event>)

  class Cluster {
    var collections: map<ObjectKey, GameServerCollection>
    var servers: map<ObjectKey, GameServer>
    var events: seq<Event>
    var requests: seq<Request>

    ghost function View(): ClusterView
      reads this
    {
      ClusterView(collections, servers, requests, events)
    }

    /**
     * The lister indexes every collection under its own namespace and name,
     * and collections are namespaced objects: none has the empty namespace.
     */
    ghost predicate Valid()
      reads this
    {
      forall k :: k in collections ==> collections[k].meta == k && k.namespace != ""
    }

    constructor (collections: map<ObjectKey, GameServerCollection>, servers: map<ObjectKey, GameServer>)
      ensures this.collections == collections && this.servers == servers
      ensures events == [] && requests == []
    {
      this.collections, this.servers := collections, servers;
      events, requests := [], [];
    }

    /** The collection lister's `Get`. */
    method GetCollection(key: ObjectKey, rejected: bool) returns (r: Result<GameServerCollection, ApiError>)
      ensures rejected ==> r == Failure(Unavailable)
      ensures !rejected && key !in collections ==> r == Failure(NotFound)
      ensures !rejected && key in collections ==> r == Success(collections[key])
    {
      if rejected {
        r := Failure(Unavailable);
      } else if key in collections {
        r := Success(collections[key]);
      } else {
        r := Failure(NotFound);
      }
    }

    /**
     * The game-server lister's `List` with the selector `dgsCol=<colName>`:
     * every matching game server exactly once, in no particular order.
     */
    method ListSelected(namespace: string, colName: string, rejected: bool) returns (r: Result<seq<ObjectKey>, ApiError>)
      ensures rejected <==> r.Failure?
      ensures r.Failure? ==> r.error == Unavailable
      ensures r.Success? ==> Distinct(r.value) && |r.value| == |Labelled(servers, namespace, colName)|
      ensures r.Success? ==> forall k :: k in r.value <==> k in Labelled(servers, namespace, colName)
    {
      if rejected {
        return Failure(Unavailable);
      }
      var selected := Labelled(servers, namespace, colName);
      var remaining := selected;
      var keys: seq<ObjectKey> := [];
      while remaining != {}
        invariant remaining <= selected
        invariant Distinct(keys)
        invariant forall k :: k in keys <==> k in selected && k !in remaining
        invariant |keys| + |remaining| == |selected|
        decreases |remaining|
      {
        var k :| k in remaining;
        keys := keys + [k];
        remaining := remaining - {k};
      }
      r := Success(keys);
    }

    /** The client's `Get` of one game server. */
    method GetServer(key: ObjectKey, rejected: bool) returns (r: Result<GameServer, ApiError>)
      ensures rejected ==> r == Failure(Unavailable)
      ensures !rejected && key !in servers ==> r == Failure(NotFound)
      ensures !rejected && key in servers ==> r == Success(servers[key])
    {
      if rejected {
        r := Failure(Unavailable);
      } else if key in servers {
        r := Success(servers[key]);
      } else {
        r := Failure(NotFound);
      }
    }

    /** The client's `Create`: fails if the name is taken. The request is logged either way. */
    method CreateServer(key: ObjectKey, gs: GameServer, rejected: bool) returns (err: Option<ApiError>)
      modifies this
      ensures requests == old(requests) + [Create(key, gs)]
      ensures err == if rejected then Some(Unavailable) else if key in old(servers) then Some(AlreadyExists) else None
      ensures servers == if err == None then old(servers)[key := gs] else old(servers)
      ensures collections == old(collections) && events == old(events)
    {
      requests := requests + [Create(key, gs)];
      if rejected {
        err := Some(Unavailable);
      } else if key in servers {
        err := Some(AlreadyExists);
      } else {
        servers := servers[key := gs];
        err := None;
      }
    }

    /** The client's `Update`: replaces an existing game server. The request is logged either way. */
    method UpdateServer(key: ObjectKey, gs: GameServer, rejected: bool) returns (err: Option<ApiError>)
      modifies this
      ensures requests == old(requests) + [Update(key, gs)]
      ensures err == if rejected then Some(Unavailable) else if key !in old(servers) then Some(NotFound) else None
      ensures servers == if err == None then old(servers)[key := gs] else old(servers)
      ensures collections == old(collections) && events == old(events)
    {
      requests := requests + [Update(key, gs)];
      if rejected {
        err := Some(Unavailable);
      } else if key !in servers {
        err := Some(NotFound);
      } else {
        servers := servers[key := gs];
        err := None;
      }
    }

    /** The event recorder. */
    method Record(e: Event)
      modifies this
      ensures events == old(events) + [e]
      ensures collections == old(collections) && servers == old(servers) && requests == old(requests)
    {
      events := events + [e];
    }
  }
}

=== FILE: collection_controller.dfy ===
/**
 * The DedicatedGameServerCollection controller: it drains keys from its work
 * queue and reconciles each collection's replica count against the game
 * servers labelled `dgsCol=<collection name>`, creating new ones on scale-up
 * and unlinking surplus ones (no owner, no label) on scale-down.
 *
 * Everything a sync cannot decide itself is an input `Env`: the ports and
 * name suffixes it draws, the indexes it picks for unlinking, and which of
 * its API calls the server rejects. Calls are numbered within one sync:
 * 0 is the collection lookup, 1 the listing, then 2 + i is the i-th create
 * on scale-up, and 2 + 2i / 3 + 2i the i-th get / update on scale-down.
 */
module CollectionController {
  import opened Basics
  import opened ObjectKeys
  import opened ClusterState
  import opened WorkQueues

  datatype Env = Env(
    portDraw: nat -> Option<int>,    // the i-th random port of the sync; None is a failed draw
    nameSuffix: nat -> string,       // the i-th random five-character suffix
    pick: (nat, nat) -> seq<nat>,    // the random indexes: k of the n listed game servers
    failing: set<nat>)               // the calls (numbered as above) the API server rejects

  /** `k` distinct indexes below `n`. */
  predicate IndexPick(s: seq<nat>, n: nat, k: nat)
  {
    |s| == k && Distinct(s) && forall j :: 0 <= j < |s| ==> s[j] < n
  }

  /** What the random helpers promise: five-character suffixes and valid index picks. */
  ghost predicate ValidEnv(env: Env)
  {
    (forall i :: |env.nameSuffix(i)| == 5) &&
    (forall n, k :: k <= n ==> IndexPick(env.pick(n, k), n, k))
  }

  /** The number of the i-th create of a scale-up. */
  function CreateCall(i: nat): nat
  {
    2 + i
  }

  /** The number of the i-th get of a scale-down. */
  function GetCall(i: nat): nat
  {
    2 + 2 * i
  }

  /** The number of the i-th update of a scale-down. */
  function UpdateCall(i: nat): nat
  {
    3 + 2 * i
  }

  /** None of the first `n` creates of a scale-up is rejected. */
  predicate CreatesAccepted(env: Env, n: nat)
  {
    forall j :: 0 <= j < n ==> CreateCall(j) !in env.failing
  }

  /** None of the first `n` gets and updates of a scale-down is rejected. */
  predicate UnlinksAccepted(env: Env, n: nat)
  {
    forall j :: 0 <= j < n ==> GetCall(j) !in env.failing && UpdateCall(j) !in env.failing
  }

  /** The failure a sync reports. */
  datatype SyncError = Api(error: ApiError) | PortUnavailable

  /** The error `processNextWorkItem` hands to the runtime's error handler. */
  datatype WorkError = NotAString(item: Item) | SyncFailed(key: string, cause: SyncError)

  /** The sync error inside a report, if it is one. */
  function Cause(reported: Option<WorkError>): Option<SyncError>
  {
    if reported.Some? && reported.value.SyncFailed? then Some(reported.value.cause) else None
  }

  const CollectionKind := "DedicatedGameServerCollection"
  const SessionURL := "sessionUrlexample"

  /**
   * The game server a scale-up creates for `col`: labelled and owned by the
   * collection, with its start map and image. Its name is not part of the
   * value: the create request's key carries it.
   */
  function NewGameServer(col: GameServerCollection, port: int): (gs: GameServer)
    ensures Selects(gs.labels, col.meta.name)
    ensures gs.ownerReferences == [OwnerReference(CollectionKind, col.meta.name)]
    ensures gs.startMap == col.startMap && gs.image == col.image && gs.port == port
  {
    GameServer(map[LabelDGSCol := col.meta.name], [OwnerReference(CollectionKind, col.meta.name)],
               port, SessionURL, col.startMap, col.image)
  }

  /** The key of the i-th game server a scale-up of `col` creates in namespace `ns`. */
  function CreatedKey(ns: string, col: GameServerCollection, env: Env, i: nat): ObjectKey
  {
    ObjectKey(ns, col.meta.name + "-" + env.nameSuffix(i))
  }

  /** The i-th create request of a scale-up, once its port has been drawn. */
  function CreateAt(ns: string, col: GameServerCollection, env: Env, i: nat): Request
    requires env.portDraw(i).Some?
  {
    var key := CreatedKey(ns, col, env, i);
    Create(key, NewGameServer(col, env.portDraw(i).value))
  }

  /** The port draws 0 .. n-1 all succeeded. */
  predicate Drawn(env: Env, n: nat)
  {
    forall j :: 0 <= j < n ==> env.portDraw(j).Some?
  }

  /** The first `n` create requests of a scale-up, in order. */
  function Creates(ns: string, col: GameServerCollection, env: Env, n: nat): seq<Request>
    requires Drawn(env, n)
  {
    if n == 0 then [] else Creates(ns, col, env, n - 1) + [CreateAt(ns, col, env, n - 1)]
  }

  /** The game servers the first `n` creates of a scale-up add, by key. */
  function Made(ns: string, col: GameServerCollection, env: Env, n: nat): map<ObjectKey, GameServer>
    requires Drawn(env, n)
  {
    if n == 0 then map[] else Made(ns, col, env, n - 1)[CreatedKey(ns, col, env, n - 1) := CreateAt(ns, col, env, n - 1).server]
  }

  /** A successful create of a key not yet present extends the created map by one entry. */
  lemma MadeStep(base: map<ObjectKey, GameServer>, ns: string, col: GameServerCollection, env: Env, i: nat)
    requires Drawn(env, i + 1) && base.Keys !! Made(ns, col, env, i).Keys
    requires CreatedKey(ns, col, env, i) !in base + Made(ns, col, env, i)
    ensures base.Keys !! Made(ns, col, env, i + 1).Keys
    ensures (base + Made(ns, col, env, i))[CreatedKey(ns, col, env, i) := CreateAt(ns, col, env, i).server]
            == base + Made(ns, col, env, i + 1)
  {
  }

  /** The j-th of the first `n` create requests is `CreateAt(j)`, and there are `n` of them. */
  lemma {:induction false} CreatesAt(ns: string, col: GameServerCollection, env: Env, n: nat)
    requires Drawn(env, n)
    ensures |Creates(ns, col, env, n)| == n
    ensures forall j :: 0 <= j < n ==> Creates(ns, col, env, n)[j] == CreateAt(ns, col, env, j)
  {
    if n > 0 {
      CreatesAt(ns, col, env, n - 1);
    }
  }

  /**
   * Every create request names a game server `<collection>-<five characters>`
   * in the sync's namespace, selected by and owned by the collection, with
   * the collection's start map and image.
   */
  lemma CreateAtShape(ns: string, col: GameServerCollection, env: Env, i: nat)
    requires ValidEnv(env) && env.portDraw(i).Some?
    ensures var r := CreateAt(ns, col, env, i);
      r.Create? && r.key.namespace == ns &&
      |r.key.name| == |col.meta.name| + 6 &&
      r.key.name[..|col.meta.name|] == col.meta.name && r.key.name[|col.meta.name|] == '-' &&
      Selects(r.server.labels, col.meta.name) &&
      r.server.ownerReferences == [OwnerReference(CollectionKind, col.meta.name)] &&
      r.server.startMap == col.startMap && r.server.image == col.image
  {
    var name := CreateAt(ns, col, env, i).key.name;
    assert |env.nameSuffix(i)| == 5;
    assert name == col.meta.name + "-" + env.nameSuffix(i);
  }

  /** The update request that unlinks game server `k` as it stood in `servers`. */
  function UnlinkAt(servers: map<ObjectKey, GameServer>, k: ObjectKey): Request
    requires k in servers
  {
    Update(k, Unlinked(servers[k]))
  }

  /** The update requests unlinking `keys` in order, each from its state in `servers`. */
  function Unlinks(servers: map<ObjectKey, GameServer>, keys: seq<ObjectKey>): seq<Request>
    requires forall x :: x in keys ==> x in servers
  {
    seq(|keys|, j requires 0 <= j < |keys| => UnlinkAt(servers, keys[j]))
  }

  /**
   * `servers` after the game servers in `keys` are unlinked: nothing is
   * removed, the unlinked ones lose owner and label, the others are as they were.
   */
  function UnlinkAll(servers: map<ObjectKey, GameServer>, keys: seq<ObjectKey>): (r: map<ObjectKey, GameServer>)
    ensures r.Keys == servers.Keys
    ensures forall x :: x in r && x in keys ==> r[x].ownerReferences == [] && LabelDGSCol !in r[x].labels
    ensures forall x :: x in r && x !in keys ==> r[x] == servers[x]
  {
    map x | x in servers :: if x in keys then Unlinked(servers[x]) else servers[x]
  }

  /** Unlinking one more game server, not unlinked before, extends `UnlinkAll` by that key. */
  lemma UnlinkAllStep(servers: map<ObjectKey, GameServer>, keys: seq<ObjectKey>, k: ObjectKey)
    requires k in servers && k !in keys
    ensures UnlinkAll(servers, keys)[k] == servers[k]
    ensures UnlinkAll(servers, keys)[k := Unlinked(servers[k])] == UnlinkAll(servers, keys + [k])
  {
    var a, b := UnlinkAll(servers, keys)[k := Unlinked(servers[k])], UnlinkAll(servers, keys + [k]);
    assert forall x :: x in keys + [k] <==> x in keys || x == k;
    assert a.Keys == b.Keys;
    forall x | x in a
      ensures a[x] == b[x]
    {
    }
  }

  /** Appending a request for one more key extends `Unlinks` by that request. */
  lemma UnlinksStep(servers: map<ObjectKey, GameServer>, keys: seq<ObjectKey>, k: ObjectKey)
    requires k in servers && forall x :: x in keys ==> x in servers
    ensures Unlinks(servers, keys + [k]) == Unlinks(servers, keys) + [UnlinkAt(servers, k)]
  {
  }

  /** The listed game servers at the picked indexes, as the scale-down names them in `ns`. */
  function Targets(ns: string, existing: seq<ObjectKey>, indexes: seq<nat>): seq<ObjectKey>
    requires forall j :: 0 <= j < |indexes| ==> indexes[j] < |existing|
  {
    seq(|indexes|, j requires 0 <= j < |indexes| => ObjectKey(ns, existing[indexes[j]].name))
  }

  /**
   * Distinct indexes into a duplicate-free listing of selected game servers
   * pick distinct selected game servers.
   */
  lemma TargetsAreSelected(servers: map<ObjectKey, GameServer>, ns: string, colName: string,
                           existing: seq<ObjectKey>, indexes: seq<nat>)
    requires Distinct(existing) && forall x :: x in existing ==> x in Labelled(servers, ns, colName)
    requires Distinct(indexes) && forall j :: 0 <= j < |indexes| ==> indexes[j] < |existing|
    ensures var t := Targets(ns, existing, indexes);
      Distinct(t) && forall x :: x in t ==> x in existing && x in Labelled(servers, ns, colName) && x in servers
  {
    var t := Targets(ns, existing, indexes);
    forall j | 0 <= j < |t|
      ensures t[j] == existing[indexes[j]] && t[j] in existing
    {
      assert existing[indexes[j]] in existing;
    }
    forall a, b | 0 <= a < b < |t|
      ensures t[a] != t[b]
    {
      if indexes[a] < indexes[b] {
        assert existing[indexes[a]] != existing[indexes[b]];
      } else {
        assert existing[indexes[b]] != existing[indexes[a]];
      }
    }
  }

  /** A prefix of a duplicate-free sequence is duplicate-free and draws from it. */
  lemma DistinctPrefix<T>(s: seq<T>, n: nat)
    requires n <= |s| && Distinct(s)
    ensures Distinct(s[..n]) && forall x :: x in s[..n] ==> x in s
  {
  }

  /** The elements of a duplicate-free sequence form a set of its length. */
  lemma {:induction false} DistinctCard<T>(s: seq<T>)
    requires Distinct(s)
    ensures |set x | x in s| == |s|
  {
    if s != [] {
      var init := s[..|s| - 1];
      assert Distinct(init);
      DistinctCard(init);
      assert (set x | x in s) == (set x | x in init) + {s[|s| - 1]};
    }
  }

  /**
   * Unlinking distinct selected game servers takes exactly those out of the
   * selection, so the selection shrinks by their number.
   */
  lemma LabelledAfterUnlinkAll(servers: map<ObjectKey, GameServer>, keys: seq<ObjectKey>, ns: string, colName: string)
    requires Distinct(keys) && forall x :: x in keys ==> x in Labelled(servers, ns, colName)
    ensures Labelled(UnlinkAll(servers, keys), ns, colName) == Labelled(servers, ns, colName) - set x | x in keys
    ensures |Labelled(UnlinkAll(servers, keys), ns, colName)| == |Labelled(servers, ns, colName)| - |keys|
  {
    var after := UnlinkAll(servers, keys);
    forall x | x in after && x in keys
      ensures !Selects(after[x].labels, colName)
    {
      UnlinkedIsNeverSelected(servers[x], colName);
    }
    assert Labelled(after, ns, colName) == Labelled(servers, ns, colName) - set x | x in keys;
    DistinctCard(keys);
  }

  /**
   * A scale-up by `count` taking the game servers from `preServers` to
   * `postServers` and the request log from `preRequests` to `postRequests`:
   * `created` creates succeeded and stay (no rollback), none of them was
   * rejected, the old game servers are untouched, and the log holds one
   * create per drawn port, in order, the last one the rejected create if the
   * error came from the API server: `Unavailable` when the server rejected
   * it, otherwise `AlreadyExists` because its name was taken.
   */
  ghost predicate ScaledUp(preServers: map<ObjectKey, GameServer>, postServers: map<ObjectKey, GameServer>,
                           preRequests: seq<Request>, postRequests: seq<Request>,
                           ns: string, col: GameServerCollection, env: Env, count: nat,
                           err: Option<SyncError>, created: nat)
  {
    created <= count && (err == None <==> created == count) &&
    CreatesAccepted(env, created) &&
    (err == Some(PortUnavailable) ==> env.portDraw(created) == None) &&
    var issued := if err.Some? && err.value.Api? then created + 1 else created;
    (err.Some? && err.value.Api? ==>
      err.value.error == (if CreateCall(created) in env.failing then Unavailable else AlreadyExists)) &&
    Drawn(env, issued) && postRequests == preRequests + Creates(ns, col, env, issued) &&
    preServers.Keys !! Made(ns, col, env, created).Keys &&
    (err == Some(Api(AlreadyExists)) ==> CreatedKey(ns, col, env, created) in preServers + Made(ns, col, env, created)) &&
    postServers == preServers + Made(ns, col, env, created) &&
    |Labelled(postServers, ns, col.meta.name)| == |Labelled(preServers, ns, col.meta.name)| + created
  }

  /**
   * A scale-down by `count` of the collection `colName` in `ns`: the distinct
   * selected game servers `picked` are unlinked and nothing else changes; the
   * log holds one update per game server in `attempted`, which is `picked`
   * plus, on a rejected update, the selected game server it was for (so
   * `attempted` is distinct too). None of the gets
   * and updates for `picked` was rejected, and an error means the next get
   * was (and then no update followed it), or that get went through and the
   * update after it was rejected.
   */
  ghost predicate ScaledDown(preServers: map<ObjectKey, GameServer>, postServers: map<ObjectKey, GameServer>,
                             preRequests: seq<Request>, postRequests: seq<Request>,
                             ns: string, colName: string, env: Env, count: nat,
                             err: Option<SyncError>, picked: seq<ObjectKey>, attempted: seq<ObjectKey>)
  {
    Distinct(picked) && |picked| <= count && (err == None <==> |picked| == count) &&
    (err.Some? ==> err == Some(Api(Unavailable))) &&
    UnlinksAccepted(env, |picked|) &&
    (err.Some? ==> if attempted == picked then GetCall(|picked|) in env.failing
                   else GetCall(|picked|) !in env.failing && UpdateCall(|picked|) in env.failing) &&
    (forall x :: x in picked ==> x in Labelled(preServers, ns, colName)) &&
    postServers == UnlinkAll(preServers, picked) &&
    |Labelled(postServers, ns, colName)| == |Labelled(preServers, ns, colName)| - |picked| &&
    picked <= attempted && |attempted| <= |picked| + 1 && (err == None ==> attempted == picked) &&
    Distinct(attempted) && (forall x :: x in attempted ==> x in Labelled(preServers, ns, colName)) &&
    postRequests == preRequests + Unlinks(preServers, attempted)
  }

  /**
   * How far a sync's scaling got: the creates that succeeded, the game
   * servers unlinked, and those an update was issued for.
   */
  datatype Trace = Trace(created: nat, picked: seq<ObjectKey>, attempted: seq<ObjectKey>)

  /** A sync that ended before scaling. */
  const NoTrace := Trace(0, [], [])

  /**
   * What one sync of collection `k` (found, and listed) does, from cluster
   * state `pre` to `post`, with `t` recording how far its scaling got.
   */
  ghost predicate Reconciled(pre: ClusterView, post: ClusterView, k: ObjectKey, col: GameServerCollection, env: Env,
                             err: Option<SyncError>, t: Trace)
  {
    var selected := |Labelled(pre.servers, k.namespace, k.name)|;
    post.collections == pre.collections &&
    // success: the selection has converged to the replica count, and one event is recorded
    (err == None ==>
      |Labelled(post.servers, k.namespace, k.name)| == col.replicas && post.events == pre.events + [Synced(k)]) &&
    (err != None ==> post.events == pre.events) &&
    // in balance: no request at all
    (selected == col.replicas ==> err == None && post.servers == pre.servers && post.requests == pre.requests) &&
    (selected < col.replicas ==>
      ScaledUp(pre.servers, post.servers, pre.requests, post.requests,
               k.namespace, col, env, col.replicas - selected, err, t.created)) &&
    (selected > col.replicas ==>
      ScaledDown(pre.servers, post.servers, pre.requests, post.requests,
                 k.namespace, k.name, env, selected - col.replicas, err, t.picked, t.attempted))
  }

  /**
   * What one sync of work-queue key `key` does, from cluster state `pre` to
   * `post`: a malformed key or a collection that no longer exists ends the
   * sync quietly, a rejected lookup or listing fails it, anything else
   * reconciles.
   */
  ghost predicate SyncOutcome(pre: ClusterView, post: ClusterView, key: string, env: Env,
                              err: Option<SyncError>, t: Trace)
  {
    match SplitMetaNamespaceKey(key)
    case Failure(_) => err == None && post == pre
    case Success(k) =>
      if 0 in env.failing then err == Some(Api(Unavailable)) && post == pre
      else if k !in pre.collections then err == None && post == pre
      else if 1 in env.failing then err == Some(Api(Unavailable)) && post == pre
      else Reconciled(pre, post, k, pre.collections[k], env, err, t)
  }

  /**
   * The state after `i` successful steps of a scale-up: the first `i` creates
   * were not rejected, are logged and their game servers added, to keys
   * that were free.
   */
  ghost predicate ScalingUp(preServers: map<ObjectKey, GameServer>, servers: map<ObjectKey, GameServer>,
                            preRequests: seq<Request>, requests: seq<Request>,
                            ns: string, col: GameServerCollection, env: Env, i: nat)
  {
    Drawn(env, i) && CreatesAccepted(env, i) &&
    requests == preRequests + Creates(ns, col, env, i) &&
    preServers.Keys !! Made(ns, col, env, i).Keys && servers == preServers + Made(ns, col, env, i) &&
    |Labelled(servers, ns, col.meta.name)| == |Labelled(preServers, ns, col.meta.name)| + i
  }

  /** One more create request extends the log of a scale-up by `CreateAt(i)`. */
  lemma CreatesStep(preRequests: seq<Request>, requests: seq<Request>, ns: string, col: GameServerCollection, env: Env, i: nat)
    requires Drawn(env, i + 1) && requests == preRequests + Creates(ns, col, env, i)
    ensures requests + [CreateAt(ns, col, env, i)] == preRequests + Creates(ns, col, env, i + 1)
  {
    assert Creates(ns, col, env, i + 1) == Creates(ns, col, env, i) + [CreateAt(ns, col, env, i)];
  }

  /** A successful create of a free key adds one game server, to the created map and to the selection. */
  lemma ServersStep(preServers: map<ObjectKey, GameServer>, servers: map<ObjectKey, GameServer>,
                    ns: string, col: GameServerCollection, env: Env, i: nat)
    requires Drawn(env, i + 1) && preServers.Keys !! Made(ns, col, env, i).Keys
    requires servers == preServers + Made(ns, col, env, i)
    requires |Labelled(servers, ns, col.meta.name)| == |Labelled(preServers, ns, col.meta.name)| + i
    requires CreatedKey(ns, col, env, i) !in servers
    ensures var after := servers[CreatedKey(ns, col, env, i) := CreateAt(ns, col, env, i).server];
      preServers.Keys !! Made(ns, col, env, i + 1).Keys && after == preServers + Made(ns, col, env, i + 1) &&
      |Labelled(after, ns, col.meta.name)| == |Labelled(preServers, ns, col.meta.name)| + i + 1
  {
    var k, r := CreatedKey(ns, col, env, i), CreateAt(ns, col, env, i);
    assert r.server == NewGameServer(col, env.portDraw(i).value);
    MadeStep(preServers, ns, col, env, i);
    LabelledAfterCreate(servers, k, r.server, col.meta.name);
  }

  /** A successful create of a free key is one more scale-up step. */
  lemma ScaleUpStep(preServers: map<ObjectKey, GameServer>, servers: map<ObjectKey, GameServer>,
                    preRequests: seq<Request>, requests: seq<Request>,
                    ns: string, col: GameServerCollection, env: Env, i: nat)
    requires ScalingUp(preServers, servers, preRequests, requests, ns, col, env, i)
    requires env.portDraw(i).Some? && CreateCall(i) !in env.failing && CreatedKey(ns, col, env, i) !in servers
    ensures ScalingUp(preServers, servers[CreatedKey(ns, col, env, i) := CreateAt(ns, col, env, i).server],
                      preRequests, requests + [CreateAt(ns, col, env, i)], ns, col, env, i + 1)
  {
    assert Drawn(env, i + 1);
    CreatesStep(preRequests, requests, ns, col, env, i);
    ServersStep(preServers, servers, ns, col, env, i);
    assert CreatesAccepted(env, i + 1);
  }

  /** A scale-up whose i-th port draw fails stops there with `PortUnavailable`. */
  lemma ScaleUpStopsAtDraw(preServers: map<ObjectKey, GameServer>, servers: map<ObjectKey, GameServer>,
                           preRequests: seq<Request>, requests: seq<Request>,
                           ns: string, col: GameServerCollection, env: Env, count: nat, i: nat)
    requires ScalingUp(preServers, servers, preRequests, requests, ns, col, env, i)
    requires i < count && env.portDraw(i).None?
    ensures ScaledUp(preServers, servers, preRequests, requests, ns, col, env, count, Some(PortUnavailable), i)
  {
  }

  /**
   * A scale-up whose i-th create is rejected stops there, with that create
   * logged; `AlreadyExists` comes from a name that was taken.
   */
  lemma ScaleUpStopsAtCreate(preServers: map<ObjectKey, GameServer>, servers: map<ObjectKey, GameServer>,
                             preRequests: seq<Request>, requests: seq<Request>,
                             ns: string, col: GameServerCollection, env: Env, count: nat, i: nat, e: ApiError)
    requires ScalingUp(preServers, servers, preRequests, requests, ns, col, env, i)
    requires i < count && env.portDraw(i).Some?
    requires e == if CreateCall(i) in env.failing then Unavailable else AlreadyExists
    requires e == AlreadyExists ==> CreatedKey(ns, col, env, i) in servers
    ensures ScaledUp(preServers, servers, preRequests, requests + [CreateAt(ns, col, env, i)],
                     ns, col, env, count, Some(Api(e)), i)
  {
  }

  /** A scale-up that completed all `count` steps succeeded. */
  lemma ScaleUpDone(preServers: map<ObjectKey, GameServer>, servers: map<ObjectKey, GameServer>,
                    preRequests: seq<Request>, requests: seq<Request>,
                    ns: string, col: GameServerCollection, env: Env, count: nat)
    requires ScalingUp(preServers, servers, preRequests, requests, ns, col, env, count)
    ensures ScaledUp(preServers, servers, preRequests, requests, ns, col, env, count, None, count)
  {
  }

  /**
   * A sync whose scale-up went as `ScaledUp` says, followed by the event on
   * success, reconciles.
   */
  lemma ReconciledByScaleUp(pre: ClusterView, post: ClusterView, k: ObjectKey, col: GameServerCollection, env: Env,
                            err: Option<SyncError>, created: nat)
    requires col.meta == k && |Labelled(pre.servers, k.namespace, k.name)| < col.replicas
    requires ScaledUp(pre.servers, post.servers, pre.requests, post.requests, k.namespace, col, env,
                      col.replicas - |Labelled(pre.servers, k.namespace, k.name)|, err, created)
    requires post.collections == pre.collections
    requires post.events == if err == None then pre.events + [Synced(k)] else pre.events
    ensures Reconciled(pre, post, k, col, env, err, Trace(created, [], []))
  {
  }

  /**
   * A sync whose scale-down went as `ScaledDown` says, followed by the event
   * on success, reconciles.
   */
  lemma ReconciledByScaleDown(pre: ClusterView, post: ClusterView, k: ObjectKey, col: GameServerCollection, env: Env,
                              err: Option<SyncError>, picked: seq<ObjectKey>, attempted: seq<ObjectKey>)
    requires col.meta == k && |Labelled(pre.servers, k.namespace, k.name)| > col.replicas
    requires ScaledDown(pre.servers, post.servers, pre.requests, post.requests, k.namespace, k.name, env,
                        |Labelled(pre.servers, k.namespace, k.name)| - col.replicas, err, picked, attempted)
    requires post.collections == pre.collections
    requires post.events == if err == None then pre.events + [Synced(k)] else pre.events
    ensures Reconciled(pre, post, k, col, env, err, Trace(0, picked, attempted))
  {
  }

  /**
   * The update handler's filter: an update is worth a sync only when the
   * object's resource version moved and its replica count changed. A periodic
   * re-list delivers an unchanged resource version and is dropped.
   */
  predicate UpdateNeedsSync(oldCol: GameServerCollection, newCol: GameServerCollection)
  {
    oldCol.resourceVersion != newCol.resourceVersion && oldCol.replicas != newCol.replicas
  }

  /**
   * A sync whose collection lookup is rejected returns that error and changes
   * nothing; one whose listing is rejected likewise.
   */
  lemma RejectedReadFails(pre: ClusterView, post: ClusterView, key: string, env: Env, err: Option<SyncError>, t: Trace)
    requires SyncOutcome(pre, post, key, env, err, t)
    requires SplitMetaNamespaceKey(key).Success?
    requires 0 in env.failing || (SplitMetaNamespaceKey(key).value in pre.collections && 1 in env.failing)
    ensures err == Some(Api(Unavailable)) && post == pre
  {
  }

  /**
   * A key without '/' splits to the empty namespace, under which no
   * (namespaced) collection is stored: unless the lookup itself is
   * rejected, the sync ends quietly and changes nothing.
   */
  lemma BareKeyIsQuiet(pre: ClusterView, post: ClusterView, key: string, env: Env, err: Option<SyncError>, t: Trace)
    requires SyncOutcome(pre, post, key, env, err, t)
    requires forall k :: k in pre.collections ==> k.namespace != ""
    requires '/' !in key && 0 !in env.failing
    ensures err == None && post == pre
  {
    assert ObjectKey("", key) !in pre.collections;
  }

  /**
   * After a successful sync of `key`, a second sync whose lookup and listing
   * go through issues no request and changes no game server: it only records
   * one more event.
   */
  lemma ResyncIsQuiet(pre: ClusterView, mid: ClusterView, post: ClusterView, key: string,
                      env1: Env, env2: Env, t1: Trace, err2: Option<SyncError>, t2: Trace)
    requires SyncOutcome(pre, mid, key, env1, None, t1)
    requires SyncOutcome(mid, post, key, env2, err2, t2)
    requires 0 !in env2.failing && 1 !in env2.failing
    ensures err2 == None && post.servers == mid.servers && post.requests == mid.requests
    ensures post.collections == mid.collections
    ensures SplitMetaNamespaceKey(key).Success? && SplitMetaNamespaceKey(key).value in mid.collections ==>
              post.events == mid.events + [Synced(SplitMetaNamespaceKey(key).value)]
  {
    match SplitMetaNamespaceKey(key)
    case Failure(_) =>
    case Success(k) =>
      if k in pre.collections {
        var col := pre.collections[k];
        assert |Labelled(mid.servers, k.namespace, k.name)| == col.replicas;
        assert mid.collections[k] == col;
      }
  }

  /**
   * What a scale-up of `col` in `ns` needs beyond the API server's consent:
   * the ports for up to its replica count can be drawn, and the names drawn
   * for them are pairwise distinct and not taken in `servers`.
   */
  ghost predicate Unobstructed(servers: map<ObjectKey, GameServer>, ns: string, col: GameServerCollection, env: Env)
  {
    Drawn(env, col.replicas) &&
    (forall i, j :: 0 <= i < j < col.replicas ==> env.nameSuffix(i) != env.nameSuffix(j)) &&
    (forall i :: 0 <= i < col.replicas ==> CreatedKey(ns, col, env, i) !in servers)
  }

  /** A name suffix different from the first `n` is not among the keys their creates made. */
  lemma {:induction false} NotYetMade(ns: string, col: GameServerCollection, env: Env, n: nat, i: nat)
    requires Drawn(env, n) && forall j :: 0 <= j < n ==> env.nameSuffix(j) != env.nameSuffix(i)
    ensures CreatedKey(ns, col, env, i) !in Made(ns, col, env, n)
  {
    if n > 0 {
      NotYetMade(ns, col, env, n - 1, i);
      var prefix := col.meta.name + "-";
      assert (prefix + env.nameSuffix(n - 1))[|prefix|..] == env.nameSuffix(n - 1);
      assert (prefix + env.nameSuffix(i))[|prefix|..] == env.nameSuffix(i);
    }
  }

  /**
   * A sync in which the API server rejects no call, and whose scale-up of
   * the synced collection (if any) is unobstructed, succeeds: the collection's selection ends at its
   * replica count.
   */
  lemma UnrejectedSyncSucceeds(pre: ClusterView, post: ClusterView, key: string, env: Env,
                               err: Option<SyncError>, t: Trace)
    requires SyncOutcome(pre, post, key, env, err, t)
    requires env.failing == {}
    requires SplitMetaNamespaceKey(key).Success? && SplitMetaNamespaceKey(key).value in pre.collections ==>
               var k := SplitMetaNamespaceKey(key).value;
               Unobstructed(pre.servers, k.namespace, pre.collections[k], env)
    ensures err == None
    ensures SplitMetaNamespaceKey(key).Success? && SplitMetaNamespaceKey(key).value in pre.collections ==>
              var k := SplitMetaNamespaceKey(key).value;
              |Labelled(post.servers, k.namespace, k.name)| == pre.collections[k].replicas
  {
    match SplitMetaNamespaceKey(key)
    case Failure(_) =>
    case Success(k) =>
      if k in pre.collections {
        var col := pre.collections[k];
        if |Labelled(pre.servers, k.namespace, k.name)| < col.replicas && err.Some? {
          assert Unobstructed(pre.servers, k.namespace, col, env);
          NotYetMade(k.namespace, col, env, t.created, t.created);
        }
      }
  }

  class Controller {
    const cluster: Cluster
    const queue: WorkQueue

    constructor (cluster: Cluster, queue: WorkQueue)
      ensures this.cluster == cluster && this.queue == queue
    {
      this.cluster, this.queue := cluster, queue;
    }

    /**
     * The scale-up loop: `count` times, draw a port, build a game server named
     * `<collection>-<suffix>` and create it in `ns`, stopping at the first
     * failure with nothing rolled back. `created` counts the creates that
     * succeeded.
     */
    method ScaleUp(ns: string, col: GameServerCollection, count: nat, env: Env) returns (err: Option<SyncError>, ghost created: nat)
      modifies cluster
      ensures ScaledUp(old(cluster.servers), cluster.servers, old(cluster.requests), cluster.requests,
                       ns, col, env, count, err, created)
      ensures cluster.collections == old(cluster.collections) && cluster.events == old(cluster.events)
    {
      for i := 0 to count
        invariant ScalingUp(old(cluster.servers), cluster.servers, old(cluster.requests), cluster.requests, ns, col, env, i)
        invariant cluster.collections == old(cluster.collections) && cluster.events == old(cluster.events)
      {
        ghost var servers, requests := cluster.servers, cluster.requests;
        var e := CreateOne(ns, col, env, i);
        if e == Some(PortUnavailable) {
          ScaleUpStopsAtDraw(old(cluster.servers), servers, old(cluster.requests), requests, ns, col, env, count, i);
          return e, i;
        }
        if e.Some? {
          ScaleUpStopsAtCreate(old(cluster.servers), servers, old(cluster.requests), requests, ns, col, env, count, i, e.value.error);
          return e, i;
        }
        ScaleUpStep(old(cluster.servers), servers, old(cluster.requests), requests, ns, col, env, i);
      }
      ScaleUpDone(old(cluster.servers), cluster.servers, old(cluster.requests), cluster.requests, ns, col, env, count);
      return None, count;
    }

    /**
     * One step of the scale-up: draw a port, then create the game server
     * `<collection>-<suffix>` in `ns`. A failed draw issues no request.
     */
    method CreateOne(ns: string, col: GameServerCollection, env: Env, i: nat) returns (err: Option<SyncError>)
      modifies cluster
      ensures env.portDraw(i).None? ==> err == Some(PortUnavailable) && unchanged(cluster)
      ensures env.portDraw(i).Some? ==>
        var k := CreatedKey(ns, col, env, i);
        cluster.requests == old(cluster.requests) + [CreateAt(ns, col, env, i)] &&
        err == (if CreateCall(i) in env.failing then Some(Api(Unavailable))
                else if k in old(cluster.servers) then Some(Api(AlreadyExists)) else None) &&
        cluster.servers == (if err == None then old(cluster.servers)[k := CreateAt(ns, col, env, i).server] else old(cluster.servers))
      ensures cluster.collections == old(cluster.collections) && cluster.events == old(cluster.events)
    {
      var port := env.portDraw(i);
      if port.None? {
        return Some(PortUnavailable);
      }
      var name := col.meta.name + "-" + env.nameSuffix(i);
      var e := cluster.CreateServer(ObjectKey(ns, name), NewGameServer(col, port.value), CreateCall(i) in env.failing);
      err := if e.Some? then Some(Api(e.value)) else None;
    }

    /**
     * One step of the scale-down: get game server `key` and update it to a
     * copy without owner references and without the `dgsCol` label. A
     * rejected get issues no update. Stated against the servers `base` the
     * scale-down started from and the keys `picked` it has unlinked so far.
     */
    method UnlinkOne(key: ObjectKey, getRejected: bool, updateRejected: bool,
                     ghost base: map<ObjectKey, GameServer>, ghost logged: seq<Request>, ghost picked: seq<ObjectKey>)
      returns (err: Option<ApiError>)
      requires key in base && key !in picked && forall x :: x in picked ==> x in base
      requires cluster.servers == UnlinkAll(base, picked) && cluster.requests == logged + Unlinks(base, picked)
      modifies cluster
      ensures err == if getRejected || updateRejected then Some(Unavailable) else None
      ensures cluster.requests == logged + Unlinks(base, if getRejected then picked else picked + [key])
      ensures cluster.servers == UnlinkAll(base, if err == None then picked + [key] else picked)
      ensures cluster.collections == old(cluster.collections) && cluster.events == old(cluster.events)
    {
      UnlinkAllStep(base, picked, key);
      UnlinksStep(base, picked, key);
      var got := cluster.GetServer(key, getRejected);
      if got.Failure? {
        return Some(got.error);
      }
      err := cluster.UpdateServer(key, Unlinked(got.value), updateRejected);
    }

    /**
     * The scale-down loop: for each of `count` random indexes into the listed
     * game servers, get the game server and update it to its unlinked copy,
     * stopping at the first failure. `picked` holds the game servers
     * unlinked, `attempted` also the one whose update was rejected.
     */
    method ScaleDown(ns: string, colName: string, existing: seq<ObjectKey>, count: nat, env: Env)
      returns (err: Option<SyncError>, ghost picked: seq<ObjectKey>, ghost attempted: seq<ObjectKey>)
      requires ValidEnv(env) && count <= |existing| && Distinct(existing)
      requires forall x :: x in existing ==> x in Labelled(cluster.servers, ns, colName)
      modifies cluster
      ensures IndexPick(env.pick(|existing|, count), |existing|, count)
      ensures |picked| <= count && picked == Targets(ns, existing, env.pick(|existing|, count))[..|picked|]
      ensures |attempted| <= count && attempted == Targets(ns, existing, env.pick(|existing|, count))[..|attempted|]
      ensures forall x :: x in picked ==> x in existing
      ensures ScaledDown(old(cluster.servers), cluster.servers, old(cluster.requests), cluster.requests,
                         ns, colName, env, count, err, picked, attempted)
      ensures cluster.collections == old(cluster.collections) && cluster.events == old(cluster.events)
    {
      var indexes := env.pick(|existing|, count);
      assert IndexPick(indexes, |existing|, count);
      ghost var targets := Targets(ns, existing, indexes);
      TargetsAreSelected(old(cluster.servers), ns, colName, existing, indexes);
      err := None;
      picked, attempted := [], [];
      for i := 0 to |indexes|
        invariant err == None && attempted == picked
        invariant picked == targets[..i]
        invariant UnlinksAccepted(env, i)
        invariant cluster.requests == old(cluster.requests) + Unlinks(old(cluster.servers), picked)
        invariant cluster.servers == UnlinkAll(old(cluster.servers), picked)
        invariant cluster.collections == old(cluster.collections) && cluster.events == old(cluster.events)
      {
        var key := ObjectKey(ns, existing[indexes[i]].name);
        assert key == targets[i] && targets[..i + 1] == picked + [key];
        assert key !in picked;
        var e := UnlinkOne(key, GetCall(i) in env.failing, UpdateCall(i) in env.failing,
                           old(cluster.servers), old(cluster.requests), picked);
        if e.Some? {
          err := Some(Api(e.value));
          if GetCall(i) !in env.failing {
            attempted := picked + [key];
          }
          break;
        }
        assert UnlinksAccepted(env, i + 1);
        picked := picked + [key];
        attempted := picked;
      }
      DistinctPrefix(targets, |picked|);
      DistinctPrefix(targets, |attempted|);
      LabelledAfterUnlinkAll(old(cluster.servers), picked, ns, colName);
    }

    /**
     * The sync handler: split the key, look the collection up, list the game
     * servers its selector matches, create or unlink the difference, and
     * record an event on success.
     */
    method Sync(key: string, env: Env) returns (err: Option<SyncError>, ghost t: Trace)
      requires cluster.Valid() && ValidEnv(env)
      modifies cluster
      ensures cluster.Valid()
      ensures SyncOutcome(old(cluster.View()), cluster.View(), key, env, err, t)
    {
      var split := SplitMetaNamespaceKey(key);
      if split.Failure? {
        return None, NoTrace;
      }
      var k := split.value;
      var found := cluster.GetCollection(k, 0 in env.failing);
      if found.Failure? {
        if found.error == NotFound {
          return None, NoTrace;
        }
        return Some(Api(found.error)), NoTrace;
      }
      var col := found.value;
      var listed := cluster.ListSelected(col.meta.namespace, col.meta.name, 1 in env.failing);
      if listed.Failure? {
        return Some(Api(listed.error)), NoTrace;
      }
      err, t := Reconcile(k, col, listed.value, env);
    }

    /**
     * The part of the sync handler after the listing: compare the number of
     * selected game servers `existing` with the replica count, create or
     * unlink the difference, and record an event on success.
     */
    method Reconcile(k: ObjectKey, col: GameServerCollection, existing: seq<ObjectKey>, env: Env)
      returns (err: Option<SyncError>, ghost t: Trace)
      requires cluster.Valid() && ValidEnv(env) && col.meta == k
      requires Distinct(existing) && |existing| == |Labelled(cluster.servers, k.namespace, k.name)|
      requires forall x :: x in existing ==> x in Labelled(cluster.servers, k.namespace, k.name)
      modifies cluster
      ensures cluster.Valid()
      ensures Reconciled(old(cluster.View()), cluster.View(), k, col, env, err, t)
    {
      ghost var pre := cluster.View();
      err, t := None, NoTrace;
      if |existing| < col.replicas {
        ghost var created;
        err, created := ScaleUp(k.namespace, col, col.replicas - |existing|, env);
        t := Trace(created, [], []);
      } else if |existing| > col.replicas {
        ghost var picked, attempted;
        err, picked, attempted := ScaleDown(k.namespace, k.name, existing, |existing| - col.replicas, env);
        t := Trace(0, picked, attempted);
      }
      if err == None {
        cluster.Record(Synced(col.meta));
      }
      if |existing| < col.replicas {
        ReconciledByScaleUp(pre, cluster.View(), k, col, env, err, t.created);
      } else if |existing| > col.replicas {
        ReconciledByScaleDown(pre, cluster.View(), k, col, env, err, t.picked, t.attempted);
      }
    }

    /**
     * One round of the worker loop, as written: take the next item, sync it
     * if it is a string key, forget it when it was not a string or the sync
     * succeeded, and mark it done. A failed sync is reported and the item is
     * neither forgotten nor queued again. `more` is false once the queue has
     * shut down.
     */
    method ProcessNextWorkItem(env: Env) returns (more: bool, reported: Option<WorkError>, ghost t: Trace)
      requires queue.Valid() && cluster.Valid() && ValidEnv(env)
      requires queue.pending != [] || queue.shuttingDown
      modifies queue, cluster
      ensures queue.Valid() && cluster.Valid()
      ensures queue.shuttingDown == old(queue.shuttingDown)
      ensures old(queue.pending) == [] ==>
        !more && reported == None && unchanged(cluster) && queue.pending == [] &&
        queue.processing == old(queue.processing) && queue.requeues == old(queue.requeues)
      ensures old(queue.pending) != [] ==>
        var item := old(queue.pending)[0];
        more && queue.pending == old(queue.pending)[1..] &&
        queue.processing == old(queue.processing) - {item} &&
        match item
        case NonString(_) =>
          reported == Some(NotAString(item)) && queue.requeues == old(queue.requeues) - {item} && unchanged(cluster)
        case StringKey(key) =>
          (reported == None || (reported.value.SyncFailed? && reported.value.key == key)) &&
          SyncOutcome(old(cluster.View()), cluster.View(), key, env, Cause(reported), t) &&
          queue.requeues == if reported == None then old(queue.requeues) - {item} else old(queue.requeues)
    {
      t := NoTrace;
      var next := queue.Get();
      if next.None? {
        return false, None, NoTrace;
      }
      var item := next.value;
      reported := None;
      match item {
        case NonString(_) =>
          queue.Forget(item);
          reported := Some(NotAString(item));
        case StringKey(key) =>
          var err;
          err, t := Sync(key, env);
          if err.Some? {
            reported := Some(SyncFailed(key, err.value));
          } else {
            queue.Forget(item);
          }
      }
      queue.Done(item);
      more := true;
    }

    /**
     * One round of the worker loop with the retry its comments describe: a
     * failed sync puts the key back through the rate limiter before the item
     * is marked done, so it is processed again.
     */
    method ProcessNextWorkItemWithRetry(env: Env) returns (more: bool, reported: Option<WorkError>, ghost t: Trace)
      requires queue.Valid() && cluster.Valid() && ValidEnv(env)
      requires queue.pending != [] || queue.shuttingDown
      modifies queue, cluster
      ensures queue.Valid() && cluster.Valid()
      ensures queue.shuttingDown == old(queue.shuttingDown)
      ensures old(queue.pending) == [] ==>
        !more && reported == None && unchanged(cluster) && queue.pending == [] &&
        queue.processing == old(queue.processing) && queue.requeues == old(queue.requeues)
      ensures old(queue.pending) != [] ==>
        var item := old(queue.pending)[0];
        more && queue.processing == old(queue.processing) - {item} &&
        match item
        case NonString(_) =>
          reported == Some(NotAString(item)) && queue.pending == old(queue.pending)[1..] &&
          queue.requeues == old(queue.requeues) - {item} && unchanged(cluster)
        case StringKey(key) =>
          (reported == None || (reported.value.SyncFailed? && reported.value.key == key)) &&
          SyncOutcome(old(cluster.View()), cluster.View(), key, env, Cause(reported), t) &&
          queue.pending == (if reported != None && !queue.shuttingDown then old(queue.pending)[1..] + [item]
                            else old(queue.pending)[1..]) &&
          queue.requeues == if reported == None then old(queue.requeues) - {item}
                            else old(queue.requeues)[item := (if item in old(queue.requeues) then old(queue.requeues)[item] else 0) + 1]
    {
      t := NoTrace;
      var next := queue.Get();
      if next.None? {
        return false, None, NoTrace;
      }
      var item := next.value;
      assert item !in queue.pending;
      reported := None;
      match item {
        case NonString(_) =>
          queue.Forget(item);
          reported := Some(NotAString(item));
        case StringKey(key) =>
          var err;
          err, t := Sync(key, env);
          if err.Some? {
            queue.AddRateLimited(item);
            reported := Some(SyncFailed(key, err.value));
          } else {
            queue.Forget(item);
          }
      }
      queue.Done(item);
      more := true;
    }

    /**
     * The add handler and `enqueueDedicatedGameServerCollection`: queue the
     * collection's namespace/name key through the rate limiter.
     */
    method Enqueue(col: GameServerCollection)
      requires queue.Valid()
      modifies queue
      ensures queue.Valid()
      ensures !queue.shuttingDown ==> StringKey(MetaNamespaceKey(col.meta)) in queue.pending
      ensures var item := StringKey(MetaNamespaceKey(col.meta));
        queue.pending == (if queue.shuttingDown || item in old(queue.pending) then old(queue.pending) else old(queue.pending) + [item]) &&
        queue.requeues == old(queue.requeues)[item := (if item in old(queue.requeues) then old(queue.requeues)[item] else 0) + 1]
      ensures queue.processing == old(queue.processing) && queue.shuttingDown == old(queue.shuttingDown)
    {
      queue.AddRateLimited(StringKey(MetaNamespaceKey(col.meta)));
    }

    /** The update handler: queue the new collection only when `UpdateNeedsSync` holds. */
    method OnUpdate(oldCol: GameServerCollection, newCol: GameServerCollection)
      requires queue.Valid()
      modifies queue
      ensures queue.Valid()
      ensures !UpdateNeedsSync(oldCol, newCol) ==>
        queue.pending == old(queue.pending) && queue.requeues == old(queue.requeues)
      ensures UpdateNeedsSync(oldCol, newCol) ==>
        var item := StringKey(MetaNamespaceKey(newCol.meta));
        queue.pending == (if queue.shuttingDown || item in old(queue.pending) then old(queue.pending) else old(queue.pending) + [item]) &&
        queue.requeues == old(queue.requeues)[item := (if item in old(queue.requeues) then old(queue.requeues)[item] else 0) + 1]
      ensures queue.processing == old(queue.processing) && queue.shuttingDown == old(queue.shuttingDown)
    {
      if oldCol.resourceVersion == newCol.resourceVersion {
        return;
      }
      if oldCol.replicas == newCol.replicas {
        return;
      }
      Enqueue(newCol);
    }
  }

  /**
   * The source as written: when the only queued key is that of a collection
   * whose lookup the API server rejects, the round reports the failure and
   * leaves the queue empty, so the collection is not synced again until it
   * changes.
   */
  method FailedSyncIsDropped(col: GameServerCollection, env: Env) returns (pending: seq<Item>, reported: Option<WorkError>)
    requires WellFormed(col.meta) && col.meta.namespace != "" && ValidEnv(env) && 0 in env.failing
    ensures pending == [] && reported == Some(SyncFailed(MetaNamespaceKey(col.meta), Api(Unavailable)))
  {
    var cluster := new Cluster(map[col.meta := col], map[]);
    var queue := new WorkQueue();
    var key := MetaNamespaceKey(col.meta);
    queue.Add(StringKey(key));
    var c := new Controller(cluster, queue);
    ghost var pre := cluster.View();
    var more;
    ghost var t;
    more, reported, t := c.ProcessNextWorkItem(env);
    SplitJoin(col.meta);
    RejectedReadFails(pre, cluster.View(), key, env, Cause(reported), t);
    pending := queue.pending;
  }

  /**
   * With the retry, the same round leaves the key queued again, with one
   * failure counted by the rate limiter.
   */
  method FailedSyncIsRetried(col: GameServerCollection, env: Env) returns (pending: seq<Item>, failures: nat)
    requires WellFormed(col.meta) && col.meta.namespace != "" && ValidEnv(env) && 0 in env.failing
    ensures pending == [StringKey(MetaNamespaceKey(col.meta))] && failures == 1
  {
    var cluster := new Cluster(map[col.meta := col], map[]);
    var queue := new WorkQueue();
    var key := MetaNamespaceKey(col.meta);
    queue.Add(StringKey(key));
    var c := new Controller(cluster, queue);
    ghost var pre := cluster.View();
    var more, reported;
    ghost var t;
    more, reported, t := c.ProcessNextWorkItemWithRetry(env);
    SplitJoin(col.meta);
    RejectedReadFails(pre, cluster.View(), key, env, Cause(reported), t);
    pending := queue.pending;
    failures := queue.requeues[StringKey(key)];
  }
}

=== FILE: object_keys.dfy ===
/**
 * The work-queue keys of client-go's cache package: an object is queued as
 * "namespace/name" (or just "name" outside any namespace) and the sync
 * handler splits the key back into its two parts.
 */
module ObjectKeys {
  import opened Basics

  datatype ObjectKey = ObjectKey(namespace: string, name: string)

  datatype KeyError = UnexpectedKeyFormat(key: string)

  /** Object names and namespaces never contain a slash. */
  predicate WellFormed(k: ObjectKey)
  {
    '/' !in k.namespace && '/' !in k.name
  }

  /** `cache.MetaNamespaceKeyFunc`. */
  function MetaNamespaceKey(k: ObjectKey): string
  {
    if |k.namespace| > 0 then k.namespace + "/" + k.name else k.name
  }

  /** The position of the first '/' in `s`, or `|s|` when there is none. */
  function SlashIndex(s: string): (i: nat)
    ensures i <= |s|
    ensures i < |s| ==> s[i] == '/'
    ensures forall j :: 0 <= j < i ==> s[j] != '/'
  {
    if s == [] || s[0] == '/' then 0 else 1 + SlashIndex(s[1..])
  }

  /**
   * `cache.SplitMetaNamespaceKey`: a key without '/' is a bare name, a key
   * with one '/' is namespace and name, any other key is malformed.
   */
  function SplitMetaNamespaceKey(key: string): (r: Result<ObjectKey, KeyError>)
    ensures r.Success? ==> WellFormed(r.value)
    ensures '/' !in key ==> r == Success(ObjectKey("", key))
  {
    var i := SlashIndex(key);
    if i == |key| then Success(ObjectKey("", key))
    else
      var rest := key[i + 1..];
      if SlashIndex(rest) < |rest| then Failure(UnexpectedKeyFormat(key))
      else Success(ObjectKey(key[..i], rest))
  }

  /** A key with two or more slashes is rejected. */
  lemma SplitRejectsTwoSlashes(key: string, i: nat, j: nat)
    requires i < j < |key| && key[i] == '/' && key[j] == '/'
    ensures SplitMetaNamespaceKey(key).Failure?
  {
    var f := SlashIndex(key);
    assert f <= i;
    var rest := key[f + 1..];
    assert rest[j - f - 1] == '/';
  }

  /** The key an object is queued under splits back into that object's namespace and name. */
  lemma SplitJoin(k: ObjectKey)
    requires WellFormed(k)
    ensures SplitMetaNamespaceKey(MetaNamespaceKey(k)) == Success(k)
  {
    var key := MetaNamespaceKey(k);
    if |k.namespace| > 0 {
      assert key[|k.namespace|] == '/';
      assert forall j :: 0 <= j < |k.namespace| ==> key[j] == k.namespace[j];
      assert SlashIndex(key) == |k.namespace|;
      assert key[|k.namespace| + 1..] == k.name;
      assert key[..|k.namespace|] == k.namespace;
    }
  }
}

=== FILE: storage_helpers.dfy ===
/**
 * The table-store protocol of the `shared` package: port reservation rows in
 * the ports table and sparse game-server rows in the game servers table.
 * Each helper takes the tables it touches; `table.Create` calls whose errors
 * the helpers ignore change nothing here.
 */
module StorageHelpers {
  import opened Basics
  import opened Strconv
  import opened TableStorage

  const RunningState := "Running"
  /** The status the sweep waits for before reclaiming an instance. */
  const MarkedForDeletionState := "MarkedForDeletion"

  /** One game server as the helpers see it; every field is a string, "" meaning "not given". */
  datatype GameServerEntity = GameServerEntity(
    name: string,
    namespace: string,
    publicIP: string,
    nodeName: string,
    status: string,
    port: string,
    activeSessions: string)

  /** What a helper returns in place of Go's `error`, and the two ways the cleanup panics. */
  datatype Error =
    | Sdk(kind: SdkError)
    | MissingIdentity
    | BadPort(reason: NumError)
    | PanicMissingPort
    | PanicNilError

  /** The row that reserves `port`: partition key and row key are both its decimal form. */
  function PortKey(port: int): EntityKey
  {
    EntityKey(Itoa(port), Itoa(port))
  }

  /** Different ports are reserved by different rows. */
  lemma PortKeyInjective(p: int, q: int)
    requires IsInt64(p) && IsInt64(q) && p != q
    ensures PortKey(p) != PortKey(q)
  {
    if Itoa(p) == Itoa(q) {
      ItoaInjective(p, q);
    }
  }

  // ----- Port reservation -----

  /** Reserves `port` by a conditional insert; a conflict means someone else holds it. */
  method CreatePort(ports: Table, port: int, fail: bool) returns (created: bool, err: Option<Error>)
    modifies ports
    ensures created <==> !fail && PortKey(port) !in old(ports.rows)
    ensures err == if fail then Some(Sdk(ServiceError)) else None
    ensures ports.rows == if created then old(ports.rows)[PortKey(port) := map[]] else old(ports.rows)
  {
    var e := ports.Insert(PortKey(port), fail);
    if e == None {
      return true, None;
    } else if e == Some(Conflict) {
      return false, None;
    }
    return false, Some(Sdk(e.value));
  }

  /** Releases `port`; releasing a port nobody holds is not an error. */
  method DeletePort(ports: Table, port: int, fail: bool) returns (err: Option<Error>)
    modifies ports
    ensures err == if fail then Some(Sdk(ServiceError)) else None
    ensures !fail ==> PortKey(port) !in ports.rows
    ensures ports.rows == if fail then old(ports.rows) else old(ports.rows) - {PortKey(port)}
  {
    var e := ports.Delete(PortKey(port), fail);
    if e.Some? && e.value != NotFound {
      return Some(Sdk(e.value));
    }
    return None;
  }

  /** Reserving the same free port twice: the first call wins, the second sees the conflict. */
  method CreatePortTwice(ports: Table, port: int) returns (first: bool, second: bool, err: Option<Error>)
    requires PortKey(port) !in ports.rows
    modifies ports
    ensures first && !second && err == None
    ensures PortKey(port) in ports.rows
  {
    var e1, e2;
    first, e1 := CreatePort(ports, port, false);
    second, e2 := CreatePort(ports, port, false);
    err := if e1.Some? then e1 else e2;
  }

  /** Releasing twice succeeds twice and leaves the port free. */
  method DeletePortTwice(ports: Table, port: int) returns (first: Option<Error>, second: Option<Error>)
    modifies ports
    ensures first == None && second == None
    ensures PortKey(port) !in ports.rows
    ensures ports.rows == old(ports.rows) - {PortKey(port)}
  {
    first := DeletePort(ports, port, false);
    second := DeletePort(ports, port, false);
  }

  // ----- Game-server rows -----

  /** The value of the field of `pod` stored under property `f`. */
  function Field(pod: GameServerEntity, f: PropertyName): string
  {
    match f
    case PublicIP => pod.publicIP
    case NodeName => pod.nodeName
    case Status => pod.status
    case Port => pod.port
    case ActiveSessions => pod.activeSessions
  }

  /** The properties an upsert of `pod` sends: the non-empty fields among the five. */
  function Patch(pod: GameServerEntity): Properties
  {
    map f: PropertyName | Field(pod, f) != "" :: Field(pod, f)
  }

  /** The game servers table after a successful upsert of `pod`. */
  function Upserted(rows: map<EntityKey, Properties>, pod: GameServerEntity): map<EntityKey, Properties>
  {
    var key := EntityKey(pod.namespace, pod.name);
    rows[key := Merge(StoredAt(rows, key), Patch(pod))]
  }

  /** Builds the property map one field at a time, skipping empty fields. */
  method SparseProperties(pod: GameServerEntity) returns (props: Properties)
    ensures forall f :: f in props <==> Field(pod, f) != ""
    ensures forall f :: f in props ==> props[f] == Field(pod, f)
  {
    props := map[];
    if pod.publicIP != "" {
      props := props[PublicIP := pod.publicIP];
    }
    if pod.nodeName != "" {
      props := props[NodeName := pod.nodeName];
    }
    if pod.status != "" {
      props := props[Status := pod.status];
    }
    if pod.port != "" {
      props := props[Port := pod.port];
    }
    if pod.activeSessions != "" {
      props := props[ActiveSessions := pod.activeSessions];
    }
  }

  /** A property map with exactly the non-empty fields of `pod` is the upsert's patch. */
  lemma PatchIsDetermined(props: Properties, pod: GameServerEntity)
    requires forall f :: f in props <==> Field(pod, f) != ""
    requires forall f :: f in props ==> props[f] == Field(pod, f)
    ensures props == Patch(pod)
  {
  }

  /**
   * Insert-or-merge of row (namespace, name): only the non-empty fields are
   * written, every other stored property keeps its value.
   */
  method UpsertGameServerEntity(servers: Table, pod: GameServerEntity, fail: bool) returns (err: Option<Error>)
    modifies servers
    ensures pod.name == "" || pod.namespace == "" ==>
      err == Some(MissingIdentity) && servers.rows == old(servers.rows)
    ensures pod.name != "" && pod.namespace != "" ==>
      err == (if fail then Some(Sdk(ServiceError)) else None) &&
      servers.rows == if fail then old(servers.rows) else Upserted(old(servers.rows), pod)
  {
    if pod.name == "" || pod.namespace == "" {
      return Some(MissingIdentity);
    }
    var key := EntityKey(pod.namespace, pod.name);
    var props := SparseProperties(pod);
    PatchIsDetermined(props, pod);
    var e := servers.InsertOrMerge(key, props, fail);
    err := if e.Some? then Some(Sdk(e.value)) else None;
  }

  /**
   * Two upserts of the same row accumulate: a field the second leaves empty
   * keeps the first one's value, and properties neither names are untouched.
   */
  lemma UpsertsAccumulate(rows: map<EntityKey, Properties>, first: GameServerEntity, second: GameServerEntity, f: PropertyName)
    requires first.namespace == second.namespace && first.name == second.name
    ensures var key := EntityKey(first.namespace, first.name);
      var row := Upserted(Upserted(rows, first), second)[key];
      (Field(second, f) != "" ==> f in row && row[f] == Field(second, f)) &&
      (Field(second, f) == "" && Field(first, f) != "" ==> f in row && row[f] == Field(first, f)) &&
      (Field(first, f) == "" && Field(second, f) == "" ==>
        (f in row <==> f in StoredAt(rows, key)) && (f in row ==> row[f] == StoredAt(rows, key)[f]))
  {
    var key := EntityKey(first.namespace, first.name);
    var once := Upserted(rows, first);
    assert StoredAt(once, key) == Merge(StoredAt(rows, key), Patch(first));
  }

  /** Point lookup of row (namespace, name). */
  method GetEntity(servers: Table, namespace: string, name: string, fail: bool) returns (r: Result<Properties, Error>)
    ensures fail ==> r == Failure(Sdk(ServiceError))
    ensures !fail && EntityKey(namespace, name) !in servers.rows ==> r == Failure(Sdk(NotFound))
    ensures !fail && EntityKey(namespace, name) in servers.rows ==> r == Success(servers.rows[EntityKey(namespace, name)])
  {
    var e := servers.Get(EntityKey(namespace, name), fail);
    r := if e.Success? then Success(e.value) else Failure(Sdk(e.error));
  }

  /** Sparse upserts of Port then Status leave both on the row. */
  method UpsertPortThenStatus(servers: Table, namespace: string, name: string, port: string, status: string)
    returns (row: Properties)
    requires namespace != "" && name != "" && port != "" && status != ""
    modifies servers
    ensures Port in row && row[Port] == port
    ensures Status in row && row[Status] == status
  {
    var none := GameServerEntity(name, namespace, "", "", "", "", "");
    var e1 := UpsertGameServerEntity(servers, none.(port := port), false);
    var e2 := UpsertGameServerEntity(servers, none.(status := status), false);
    UpsertsAccumulate(old(servers.rows), none.(port := port), none.(status := status), Port);
    UpsertsAccumulate(old(servers.rows), none.(port := port), none.(status := status), Status);
    row := servers.rows[EntityKey(namespace, name)];
  }

  // ----- Queries -----

  predicate HasProperty(props: Properties, name: PropertyName, value: string)
  {
    name in props && props[name] == value
  }

  /** Rows matching the filter `Status eq 'Running'`. */
  function RunningRows(rows: map<EntityKey, Properties>): (r: map<EntityKey, Properties>)
    ensures forall k :: k in r ==> k in rows && r[k] == rows[k] && HasProperty(r[k], Status, RunningState)
    ensures forall k :: k in rows && HasProperty(rows[k], Status, RunningState) ==> k in r
  {
    map k | k in rows && HasProperty(rows[k], Status, RunningState) :: rows[k]
  }

  /** Rows matching `Status eq MarkedForDeletionState and ActiveSessions eq '0'`. */
  function ReclaimableRows(rows: map<EntityKey, Properties>): (r: map<EntityKey, Properties>)
    ensures forall k :: k in r ==> k in rows && r[k] == rows[k]
    ensures forall k :: k in r ==> HasProperty(r[k], Status, MarkedForDeletionState) && HasProperty(r[k], ActiveSessions, "0")
    ensures forall k :: k in rows && HasProperty(rows[k], Status, MarkedForDeletionState) && HasProperty(rows[k], ActiveSessions, "0") ==> k in r
  {
    map k | k in rows && HasProperty(rows[k], Status, MarkedForDeletionState) && HasProperty(rows[k], ActiveSessions, "0") :: rows[k]
  }

  /** All rows whose status is exactly "Running"; reading changes nothing. */
  function GetRunningEntities(servers: Table): map<EntityKey, Properties>
    reads servers
  {
    RunningRows(servers.rows)
  }

  /** All rows marked for deletion whose session count is "0". */
  function GetEntitiesMarkedForDeletionWithZeroSessions(servers: Table): map<EntityKey, Properties>
    reads servers
  {
    ReclaimableRows(servers.rows)
  }

  /** No row is both running and reclaimable. */
  lemma RunningIsNeverReclaimable(rows: map<EntityKey, Properties>, k: EntityKey)
    ensures !(k in RunningRows(rows) && k in ReclaimableRows(rows))
  {
  }

  /**
   * How an upsert moves a row in and out of the running query: a non-empty
   * Status decides, an empty one leaves the row where it was; other rows stay put.
   */
  lemma RunningAfterUpsert(rows: map<EntityKey, Properties>, pod: GameServerEntity, k: EntityKey)
    ensures var key := EntityKey(pod.namespace, pod.name);
      k in RunningRows(Upserted(rows, pod)) <==>
        if k != key then k in RunningRows(rows)
        else if pod.status != "" then pod.status == RunningState
        else k in RunningRows(rows)
  {
    var key := EntityKey(pod.namespace, pod.name);
    if k == key {
      var row := Merge(StoredAt(rows, key), Patch(pod));
      if pod.status != "" {
        assert Status in Patch(pod) && Patch(pod)[Status] == pod.status;
      } else {
        assert Status !in Patch(pod);
      }
    }
  }

  /**
   * Soft-delete retention: a row reported with a non-zero session count is
   * not reclaimable, and one reported marked for deletion with "0" sessions is.
   */
  lemma ReclaimableAfterUpsert(rows: map<EntityKey, Properties>, pod: GameServerEntity)
    ensures var key := EntityKey(pod.namespace, pod.name);
      (pod.activeSessions != "" && pod.activeSessions != "0" ==> key !in ReclaimableRows(Upserted(rows, pod))) &&
      (pod.status != "" && pod.status != MarkedForDeletionState ==> key !in ReclaimableRows(Upserted(rows, pod))) &&
      (pod.status == MarkedForDeletionState && pod.activeSessions == "0" ==> key in ReclaimableRows(Upserted(rows, pod))) &&
      (pod.status == "" && pod.activeSessions == "" ==>
        (key in ReclaimableRows(Upserted(rows, pod)) <==> key in ReclaimableRows(rows)))
  {
    var key := EntityKey(pod.namespace, pod.name);
    var up := Upserted(rows, pod);
    assert up[key] == Merge(StoredAt(rows, key), Patch(pod));
    assert pod.status != "" ==> Status in Patch(pod) && Patch(pod)[Status] == pod.status;
    assert pod.activeSessions != "" ==> ActiveSessions in Patch(pod) && Patch(pod)[ActiveSessions] == pod.activeSessions;
    assert pod.status == "" ==> Status !in Patch(pod);
    assert pod.activeSessions == "" ==> ActiveSessions !in Patch(pod);
  }

  // ----- Cleanup of one game server -----

  /** What the cleanup learns from the row it reads. */
  datatype Inspection = Absent | NoPort | Unparsable(reason: NumError) | Parsed(port: int)

  function Inspect(rows: map<EntityKey, Properties>, key: EntityKey): Inspection
  {
    if key !in rows then Absent
    else if Port !in rows[key] then NoPort
    else match Atoi(rows[key][Port])
      case Failure(e) => Unparsable(e)
      case Success(p) => Parsed(p)
  }

  /** The three SDK calls of the cleanup that may fail: the lookup, the port delete, the row delete. */
  datatype DeleteFaults = DeleteFaults(lookup: bool, portDelete: bool, rowDelete: bool)

  /**
   * The cleanup as the source writes it: a port that does not parse returns
   * the (nil) lookup error, so nothing is deleted and success is reported; a
   * failed row delete dereferences that nil error and panics.
   */
  method DeleteDedicatedGameServerEntityAsWritten(servers: Table, ports: Table, namespace: string, name: string,
                                                  faults: DeleteFaults) returns (err: Option<Error>)
    requires servers != ports
    modifies servers, ports
    ensures var found := Inspect(old(servers.rows), EntityKey(namespace, name));
      !faults.lookup && found.Parsed? && !faults.portDelete ==>
        ports.rows == old(ports.rows) - {PortKey(found.port)} &&
        if faults.rowDelete then err == Some(PanicNilError) && servers.rows == old(servers.rows)
        else err == None && servers.rows == old(servers.rows) - {EntityKey(namespace, name)}
    ensures var found := Inspect(old(servers.rows), EntityKey(namespace, name));
      faults.lookup || !found.Parsed? || faults.portDelete ==>
        servers.rows == old(servers.rows) && ports.rows == old(ports.rows) &&
        err == if faults.lookup then Some(Sdk(ServiceError))
               else match found
                 case Absent => Some(Sdk(NotFound))
                 case NoPort => Some(PanicMissingPort)
                 case Unparsable(_) => None
                 case Parsed(_) => Some(Sdk(ServiceError))
  {
    var entity := GetEntity(servers, namespace, name, faults.lookup);
    if entity.Failure? {
      return Some(entity.error);
    }
    // From here on the lookup error is nil.
    var lookupErr: Option<Error> := None;
    var props := entity.value;
    if Port !in props {
      return Some(PanicMissingPort);
    }
    var port := Atoi(props[Port]);
    if port.Failure? {
      return lookupErr;
    }
    err := DeletePort(ports, port.value, faults.portDelete);
    if err.Some? {
      return err;
    }
    var errDelete := servers.Delete(EntityKey(namespace, name), faults.rowDelete);
    if errDelete.Some? {
      // The guard reads the nil lookup error instead of errDelete.
      return Some(PanicNilError);
    }
    return None;
  }

  /**
   * The cleanup as intended: a port that does not parse aborts with its own
   * error, and a not-found row delete is suppressed while other failures are
   * returned. The port is still released before the row is deleted.
   */
  method DeleteDedicatedGameServerEntity(servers: Table, ports: Table, namespace: string, name: string,
                                         faults: DeleteFaults) returns (err: Option<Error>)
    requires servers != ports
    modifies servers, ports
    ensures var found := Inspect(old(servers.rows), EntityKey(namespace, name));
      !faults.lookup && found.Parsed? && !faults.portDelete ==>
        ports.rows == old(ports.rows) - {PortKey(found.port)} &&
        if faults.rowDelete then err == Some(Sdk(ServiceError)) && servers.rows == old(servers.rows)
        else err == None && servers.rows == old(servers.rows) - {EntityKey(namespace, name)}
    ensures var found := Inspect(old(servers.rows), EntityKey(namespace, name));
      faults.lookup || !found.Parsed? || faults.portDelete ==>
        servers.rows == old(servers.rows) && ports.rows == old(ports.rows) &&
        err == if faults.lookup then Some(Sdk(ServiceError))
               else match found
                 case Absent => Some(Sdk(NotFound))
                 case NoPort => Some(PanicMissingPort)
                 case Unparsable(e) => Some(BadPort(e))
                 case Parsed(_) => Some(Sdk(ServiceError))
  {
    var entity := GetEntity(servers, namespace, name, faults.lookup);
    if entity.Failure? {
      return Some(entity.error);
    }
    var props := entity.value;
    if Port !in props {
      return Some(PanicMissingPort);
    }
    var port := Atoi(props[Port]);
    if port.Failure? {
      return Some(BadPort(port.error));
    }
    err := DeletePort(ports, port.value, faults.portDelete);
    if err.Some? {
      return err;
    }
    var errDelete := servers.Delete(EntityKey(namespace, name), faults.rowDelete);
    if errDelete.Some? && errDelete.value != NotFound {
      return Some(Sdk(errDelete.value));
    }
    return None;
  }

  // ----- The two cleanup defects on concrete rows -----

  /** A row whose Port is "none": as written, nothing is deleted and success is reported. */
  method ParseFailureAsWritten() returns (err: Option<Error>, rowKept: bool)
    ensures err == None && rowKept
  {
    var key := EntityKey("default", "arena-abcde");
    var servers := new Table(map[key := map[Port := "none"]]);
    var ports := new Table(map[]);
    AtoiRejectsNonDigit("none", 0);
    err := DeleteDedicatedGameServerEntityAsWritten(servers, ports, "default", "arena-abcde", DeleteFaults(false, false, false));
    rowKept := key in servers.rows;
  }

  /** The same row: the corrected cleanup reports the parse failure and keeps the row. */
  method ParseFailureCorrected() returns (err: Option<Error>, rowKept: bool)
    ensures err == Some(BadPort(ErrSyntax)) && rowKept
  {
    var key := EntityKey("default", "arena-abcde");
    var servers := new Table(map[key := map[Port := "none"]]);
    var ports := new Table(map[]);
    AtoiRejectsNonDigit("none", 0);
    err := DeleteDedicatedGameServerEntity(servers, ports, "default", "arena-abcde", DeleteFaults(false, false, false));
    rowKept := key in servers.rows;
  }

  /** Port "7777" and a row delete the service rejects: as written the cleanup panics after releasing the port. */
  method RowDeleteFailureAsWritten() returns (err: Option<Error>, portReleased: bool, rowKept: bool)
    ensures err == Some(PanicNilError) && portReleased && rowKept
  {
    var key := EntityKey("default", "arena-abcde");
    var servers := new Table(map[key := map[Port := Itoa(7777)]]);
    var ports := new Table(map[PortKey(7777) := map[]]);
    AtoiItoa(7777);
    err := DeleteDedicatedGameServerEntityAsWritten(servers, ports, "default", "arena-abcde", DeleteFaults(false, false, true));
    portReleased := PortKey(7777) !in ports.rows;
    rowKept := key in servers.rows;
  }

  /** The same call, corrected: the row-delete error is returned instead of a panic. */
  method RowDeleteFailureCorrected() returns (err: Option<Error>, portReleased: bool, rowKept: bool)
    ensures err == Some(Sdk(ServiceError)) && portReleased && rowKept
  {
    var key := EntityKey("default", "arena-abcde");
    var servers := new Table(map[key := map[Port := Itoa(7777)]]);
    var ports := new Table(map[PortKey(7777) := map[]]);
    AtoiItoa(7777);
    err := DeleteDedicatedGameServerEntity(servers, ports, "default", "arena-abcde", DeleteFaults(false, false, true));
    portReleased := PortKey(7777) !in ports.rows;
    rowKept := key in servers.rows;
  }
}

=== FILE: strconv.dfy ===
/**
 * Go's `strconv.Itoa` and `strconv.Atoi` on a 64-bit platform, as the table
 * helpers use them to turn a port number into a row key and back.
 */
module Strconv {
  import opened Basics

  const MinInt64: int := -0x8000_0000_0000_0000
  const MaxInt64: int := 0x7fff_ffff_ffff_ffff
  const MaxUint64: int := 0xffff_ffff_ffff_ffff

  /** Go's `int` on a 64-bit platform. */
  predicate IsInt64(n: int)
  {
    MinInt64 <= n <= MaxInt64
  }

  /** The two ways `Atoi` fails: not a decimal integer, or out of range. */
  datatype NumError = ErrSyntax | ErrRange

  predicate IsDigit(c: char)
  {
    '0' <= c <= '9'
  }

  predicate AllDigits(s: string)
  {
    forall i :: 0 <= i < |s| ==> IsDigit(s[i])
  }

  function DigitChar(d: nat): (c: char)
    requires d < 10
    ensures IsDigit(c) && c as int - '0' as int == d
  {
    ('0' as int + d) as char
  }

  /** The decimal digits of `m`, most significant first, with no leading zero. */
  function Digits(m: nat): (s: string)
    ensures |s| > 0 && AllDigits(s)
    ensures m > 0 ==> s[0] != '0'
  {
    if m < 10 then [DigitChar(m)] else Digits(m / 10) + [DigitChar(m % 10)]
  }

  /** `strconv.Itoa`: an optional minus sign followed by the digits of the magnitude. */
  function Itoa(n: int): string
  {
    if n < 0 then "-" + Digits(-n) else Digits(n)
  }

  /** The value of a digit character. */
  function DigitValue(c: char): nat
    requires IsDigit(c)
  {
    c as int - '0' as int
  }

  /** The number the decimal digits `s` denote when written after the digits of `n`. */
  function DigitsValue(n: nat, s: string): nat
    requires AllDigits(s)
    decreases |s|
  {
    if s == [] then n else DigitsValue(n * 10 + DigitValue(s[0]), s[1..])
  }

  /** Appending a digit multiplies the value by ten and adds the digit. */
  lemma {:induction false} DigitsValueAppend(n: nat, s: string, c: char)
    requires AllDigits(s) && IsDigit(c)
    ensures AllDigits(s + [c]) && DigitsValue(n, s + [c]) == DigitsValue(n, s) * 10 + DigitValue(c)
    decreases |s|
  {
    if s != [] {
      assert (s + [c])[1..] == s[1..] + [c];
      DigitsValueAppend(n * 10 + DigitValue(s[0]), s[1..], c);
    }
  }

  /** More digits never make the value smaller. */
  lemma {:induction false} DigitsValueGrows(n: nat, s: string)
    requires AllDigits(s)
    ensures DigitsValue(n, s) >= n
    decreases |s|
  {
    if s != [] {
      DigitsValueGrows(n * 10 + DigitValue(s[0]), s[1..]);
    }
  }

  /**
   * The digit loop of `strconv.ParseUint` in base 10 for 64 bits: scan `s`
   * left to right onto the value `n` read so far, failing with `ErrSyntax`
   * at the first character that is not a digit and with `ErrRange` at the
   * first digit that takes the value past 2^64 - 1; nothing after the
   * failing character is looked at.
   */
  function ScanDigits(n: nat, s: string): (r: Result<nat, NumError>)
    requires n <= MaxUint64
    ensures r.Success? ==> AllDigits(s) && r.value == DigitsValue(n, s) && r.value <= MaxUint64
    decreases |s|
  {
    if s == [] then Success(n)
    else if !IsDigit(s[0]) then Failure(ErrSyntax)
    else if n * 10 + DigitValue(s[0]) > MaxUint64 then Failure(ErrRange)
    else
      var r := ScanDigits(n * 10 + DigitValue(s[0]), s[1..]);
      assert r.Success? ==> forall j :: 1 <= j < |s| ==> s[j] == s[1..][j - 1];
      r
  }

  /** Digits whose value fits in 64 bits are accepted, with that value. */
  lemma {:induction false} ScanAccepts(n: nat, s: string)
    requires n <= MaxUint64 && AllDigits(s) && DigitsValue(n, s) <= MaxUint64
    ensures ScanDigits(n, s) == Success(DigitsValue(n, s))
    decreases |s|
  {
    if s != [] {
      var m := n * 10 + DigitValue(s[0]);
      DigitsValueGrows(m, s[1..]);
      ScanAccepts(m, s[1..]);
    }
  }

  /** A run of digits whose value overflows 64 bits fails with `ErrRange`, whatever follows it. */
  lemma {:induction false} ScanOverflows(n: nat, digits: string, rest: string)
    requires n <= MaxUint64 && AllDigits(digits) && DigitsValue(n, digits) > MaxUint64
    ensures ScanDigits(n, digits + rest) == Failure(ErrRange)
    decreases |digits|
  {
    assert digits != [];
    assert (digits + rest)[0] == digits[0];
    var m := n * 10 + DigitValue(digits[0]);
    if m <= MaxUint64 {
      assert (digits + rest)[1..] == digits[1..] + rest;
      ScanOverflows(m, digits[1..], rest);
    }
  }

  /** A run of digits whose value fits in 64 bits, then a non-digit, fails with `ErrSyntax`. */
  lemma {:induction false} ScanRejects(n: nat, digits: string, rest: string)
    requires n <= MaxUint64 && AllDigits(digits) && DigitsValue(n, digits) <= MaxUint64
    requires rest != [] && !IsDigit(rest[0])
    ensures ScanDigits(n, digits + rest) == Failure(ErrSyntax)
    decreases |digits|
  {
    if digits == [] {
      assert digits + rest == rest;
    } else {
      var m := n * 10 + DigitValue(digits[0]);
      DigitsValueGrows(m, digits[1..]);
      assert (digits + rest)[0] == digits[0];
      assert (digits + rest)[1..] == digits[1..] + rest;
      ScanRejects(m, digits[1..], rest);
    }
  }

  /** A non-digit anywhere makes the scan fail, one way or the other. */
  lemma {:induction false} ScanFails(n: nat, s: string, i: nat)
    requires n <= MaxUint64 && i < |s| && !IsDigit(s[i])
    ensures ScanDigits(n, s).Failure?
    decreases |s|
  {
    if IsDigit(s[0]) && n * 10 + DigitValue(s[0]) <= MaxUint64 {
      ScanFails(n * 10 + DigitValue(s[0]), s[1..], i - 1);
    }
  }

  /** `s` without one leading sign character. */
  function Unsigned(s: string): string
  {
    if |s| > 0 && (s[0] == '-' || s[0] == '+') then s[1..] else s
  }

  /**
   * `strconv.Atoi` on a 64-bit platform: an optional `+` or `-`, then at
   * least one decimal digit, scanned as `ScanDigits` does, then a range check
   * of the signed value against 64 bits. Strings shorter than 19 characters
   * take a separate fast path in Go, which gives the same results since
   * their digits cannot overflow.
   */
  function Atoi(s: string): (r: Result<int, NumError>)
    ensures r.Success? ==> IsInt64(r.value) && Unsigned(s) != [] && AllDigits(Unsigned(s))
    ensures s == [] ==> r == Failure(ErrSyntax)
  {
    var body := Unsigned(s);
    if body == [] then Failure(ErrSyntax)
    else match ScanDigits(0, body)
      case Failure(e) => Failure(e)
      case Success(m) =>
        var v := if s[0] == '-' then -(m as int) else m as int;
        if IsInt64(v) then Success(v) else Failure(ErrRange)
  }

  lemma {:induction false} DigitsValueOfDigits(m: nat)
    ensures DigitsValue(0, Digits(m)) == m
  {
    if m >= 10 {
      DigitsValueOfDigits(m / 10);
      DigitsValueAppend(0, Digits(m / 10), DigitChar(m % 10));
    }
  }

  /** Parsing what `Itoa` prints gives the number back. */
  lemma AtoiItoa(n: int)
    requires IsInt64(n)
    ensures Atoi(Itoa(n)) == Success(n)
  {
    var m := if n < 0 then -n else n;
    DigitsValueOfDigits(m);
    ScanAccepts(0, Digits(m));
    if n < 0 {
      assert ("-" + Digits(m))[1..] == Digits(m);
    } else {
      assert IsDigit(Digits(m)[0]);
    }
  }

  /** Distinct 64-bit integers print differently. */
  lemma ItoaInjective(a: int, b: int)
    requires IsInt64(a) && IsInt64(b) && Itoa(a) == Itoa(b)
    ensures a == b
  {
    AtoiItoa(a);
    AtoiItoa(b);
  }

  /**
   * A string whose unsigned part holds a non-digit at `i` is not a number.
   * When `i` is the first non-digit, the error is `ErrRange` if the digits
   * before it already overflow 64 bits, and `ErrSyntax` otherwise.
   */
  lemma AtoiRejectsNonDigit(s: string, i: nat)
    requires i < |Unsigned(s)| && !IsDigit(Unsigned(s)[i])
    ensures Atoi(s).Failure?
    ensures AllDigits(Unsigned(s)[..i]) ==>
              Atoi(s).error == if DigitsValue(0, Unsigned(s)[..i]) > MaxUint64 then ErrRange else ErrSyntax
  {
    var body := Unsigned(s);
    ScanFails(0, body, i);
    if AllDigits(body[..i]) {
      assert body == body[..i] + body[i..];
      if DigitsValue(0, body[..i]) > MaxUint64 {
        ScanOverflows(0, body[..i], body[i..]);
      } else {
        ScanRejects(0, body[..i], body[i..]);
      }
    }
  }
}

=== FILE: table_storage.dfy ===
/**
 * The Azure table service as the storage helpers use it: a table is a map
 * from (partition key, row key) to a property map, and each SDK call either
 * reaches the service or fails with a service error chosen by the caller of
 * the model (`fail`). The SDK's `StatusCode=409` and `StatusCode=404`
 * messages become the error kinds `Conflict` and `NotFound`.
 */
module TableStorage {
  import opened Basics

  datatype SdkError = Conflict | NotFound | ServiceError

  datatype EntityKey = EntityKey(partition: string, row: string)

  /** The property names the game-server helpers read and write. */
  datatype PropertyName = PublicIP | NodeName | Status | Port | ActiveSessions

  type Properties = map<PropertyName, string>

  /** The properties stored at `key`, or none when the row is absent. */
  function StoredAt(rows: map<EntityKey, Properties>, key: EntityKey): Properties
  {
    if key in rows then rows[key] else map[]
  }

  /** A merge: properties in `patch` overwrite, all others keep their stored value. */
  function Merge(stored: Properties, patch: Properties): (r: Properties)
    ensures r.Keys == stored.Keys + patch.Keys
    ensures forall p :: p in patch ==> r[p] == patch[p]
    ensures forall p :: p in stored && p !in patch ==> r[p] == stored[p]
  {
    stored + patch
  }

  class Table {
    var rows: map<EntityKey, Properties>

    constructor (rows: map<EntityKey, Properties>)
      ensures this.rows == rows
    {
      this.rows := rows;
    }

    /** `Entity.Insert` of an entity with no properties: conditional on the row being absent. */
    method Insert(key: EntityKey, fail: bool) returns (err: Option<SdkError>)
      modifies this
      ensures err == if fail then Some(ServiceError) else if key in old(rows) then Some(Conflict) else None
      ensures rows == if err == None then old(rows)[key := map[]] else old(rows)
    {
      if fail {
        err := Some(ServiceError);
      } else if key in rows {
        err := Some(Conflict);
      } else {
        rows := rows[key := map[]];
        err := None;
      }
    }

    /** `Entity.InsertOrMerge`: creates the row if absent, then merges `props` into it. */
    method InsertOrMerge(key: EntityKey, props: Properties, fail: bool) returns (err: Option<SdkError>)
      modifies this
      ensures err == if fail then Some(ServiceError) else None
      ensures rows == if fail then old(rows) else old(rows)[key := Merge(StoredAt(old(rows), key), props)]
    {
      if fail {
        err := Some(ServiceError);
      } else {
        rows := rows[key := Merge(StoredAt(rows, key), props)];
        err := None;
      }
    }

    /** `Entity.Get`: a point lookup. */
    method Get(key: EntityKey, fail: bool) returns (r: Result<Properties, SdkError>)
      ensures fail ==> r == Failure(ServiceError)
      ensures !fail && key !in rows ==> r == Failure(NotFound)
      ensures !fail && key in rows ==> r == Success(rows[key])
    {
      if fail {
        r := Failure(ServiceError);
      } else if key in rows {
        r := Success(rows[key]);
      } else {
        r := Failure(NotFound);
      }
    }

    /** `Entity.Delete(force = true)`: removes the row whatever its ETag. */
    method Delete(key: EntityKey, fail: bool) returns (err: Option<SdkError>)
      modifies this
      ensures err == if fail then Some(ServiceError) else if key in old(rows) then None else Some(NotFound)
      ensures rows == if err == None then old(rows) - {key} else old(rows)
    {
      if fail {
        err := Some(ServiceError);
      } else if key in rows {
        rows := rows - {key};
        err := None;
      } else {
        err := Some(NotFound);
      }
    }
  }
}

=== FILE: work_queue.dfy ===
/**
 * The rate-limited work queue the controller drains, reduced to the state
 * its callers can observe: the pending items in order (each at most once),
 * the items being processed, the per-item failure count the rate limiter
 * keeps until `Forget`, and whether the queue is shutting down. The back-off
 * delay itself is not modelled: a rate-limited add becomes pending at once.
 */
module WorkQueues {
  import opened Basics

  /** A queued item: normally a string key, but the queue accepts any value. */
  datatype Item = StringKey(key: string) | NonString(id: nat)

  class WorkQueue {
    var pending: seq<Item>
    var processing: set<Item>
    var requeues: map<Item, nat>
    var shuttingDown: bool

    /** Pending items are deduplicated. */
    ghost predicate Valid()
      reads this
    {
      Distinct(pending)
    }

    constructor ()
      ensures Valid()
      ensures pending == [] && processing == {} && requeues == map[] && !shuttingDown
    {
      pending, processing, requeues, shuttingDown := [], {}, map[], false;
    }

    /** Queues `item` unless it is already pending or the queue is shutting down. */
    method Add(item: Item)
      requires Valid()
      modifies this
      ensures Valid()
      ensures pending == if shuttingDown || item in old(pending) then old(pending) else old(pending) + [item]
      ensures processing == old(processing) && requeues == old(requeues) && shuttingDown == old(shuttingDown)
    {
      if !shuttingDown && item !in pending {
        pending := pending + [item];
      }
    }

    /** Counts one more failure for `item`, then adds it (after the back-off, which is not modelled). */
    method AddRateLimited(item: Item)
      requires Valid()
      modifies this
      ensures Valid()
      ensures requeues == old(requeues)[item := (if item in old(requeues) then old(requeues)[item] else 0) + 1]
      ensures pending == if shuttingDown || item in old(pending) then old(pending) else old(pending) + [item]
      ensures processing == old(processing) && shuttingDown == old(shuttingDown)
    {
      var failures := if item in requeues then requeues[item] else 0;
      requeues := requeues[item := failures + 1];
      Add(item);
    }

    /**
     * Takes the oldest pending item and marks it as being processed; `None`
     * means the queue has shut down and is empty. The source blocks while the
     * queue is empty and running, so that state is excluded.
     */
    method Get() returns (item: Option<Item>)
      requires Valid()
      requires pending != [] || shuttingDown
      modifies this
      ensures Valid()
      ensures old(pending) == [] ==> item == None && pending == [] && processing == old(processing)
      ensures old(pending) != [] ==>
        item == Some(old(pending)[0]) && pending == old(pending)[1..] &&
        processing == old(processing) + {old(pending)[0]}
      ensures requeues == old(requeues) && shuttingDown == old(shuttingDown)
    {
      if pending == [] {
        return None;
      }
      item := Some(pending[0]);
      processing := processing + {pending[0]};
      pending := pending[1..];
    }

    /** Marks `item` as no longer being processed. */
    method Done(item: Item)
      requires Valid()
      modifies this
      ensures Valid()
      ensures processing == old(processing) - {item}
      ensures pending == old(pending) && requeues == old(requeues) && shuttingDown == old(shuttingDown)
    {
      processing := processing - {item};
    }

    /** Clears the rate limiter's failure count for `item`. */
    method Forget(item: Item)
      requires Valid()
      modifies this
      ensures Valid()
      ensures requeues == old(requeues) - {item}
      ensures pending == old(pending) && processing == old(processing) && shuttingDown == old(shuttingDown)
    {
      requeues := requeues - {item};
    }
  }
}
